=== FILE: README.md ===
# Document-processing core of a retrieval-augmented chat service, in Dafny

This project models the document pipeline of a small RAG (retrieval-augmented
generation) service. The model covers:

- the enhanced processor: `EnhancedDocumentProcessor` in
  `rag_elements/enhanced_vectordb.py`;
- the older processor: `DocumentProcessor` in `rag_elements/vectordb.py`;
- the constants they share: `rag_elements/config.py`;
- the stats, response and session-state helpers of the API in
  `backend/utils.py`.

The pipeline takes a list of file paths through these steps:

1. It extracts records per file type: PDF pages, whole text files, and OCR of
   images.
2. It splits every record into chunks and labels each chunk with an id, its
   position and counts.
3. It builds a similarity index over the chunks.
4. Queries against that index return hits with a human-readable citation.
5. An optional chat model analyses themes and writes an answer.

The index and a JSON "sidecar" file describing it can be saved to a directory
and loaded back.

Every outside capability is a field of `Services.Services`, a pure function
the caller supplies:

- the filesystem;
- the PDF loader;
- the vision model's OCR reply;
- LangChain's recursive text splitter;
- MD5;
- the vector index's similarity search;
- the chat model;
- `json.loads`.

A capability that raises is `None`, or `Raised` for the chat model. Each
operation of the model is therefore a total function of its inputs. The
processor's mutable fields (`vector_store`, `processed_documents`) form the
record `Services.Processor`. Operations that assign them return the new
record. The module-level globals of `backend/utils.py` form
`Session.AppState`.

Metadata dictionaries are `Values.Metadata`, a record with one optional field
per key the code reads or writes. `md.get(k, d)` is `md.k.GetOr(d)`. Values
are strings, integers or `None`.

Modules follow the program's structure:

- `Config`: the constants.
- `Text`: strip, split and lower-case, basename and suffix, and integer
  formatting.
- `Sentences`: the sentence segmenter.
- `ChunkIds`: chunk ids.
- `Extraction`: extraction and the extension table.
- `Indexing`: enrichment and the index build.
- `Retrieval`: search with citations.
- `Themes`: theme analysis.
- `Persistence`: save and load.
- `Legacy`: the older `DocumentProcessor`.
- `Stats`: processing statistics.
- `Session`: the API helpers.

## Model

| member | source | states |
|---|---|---|
| Config.EnhancedSplitter | rag_elements/config.py:12-14 | The splitter uses size 800 and overlap 100, so overlap < size. There are seven separators, from "\n\n" down to a final "" that is the only empty one. |
| Config.ChunkStride | rag_elements/config.py:12-13 | The chunk start stride size - overlap is positive: the 700 it equals plus the overlap gives the chunk size. |
| Config.FillTemplate | rag_elements/config.py:35-55 | Filling the theme template places the query and the content verbatim at fixed offsets. The result's length is the sum of the pieces. |
| Text.Strip | rag_elements/enhanced_vectordb.py:203 | `str.strip()` is empty exactly for all-whitespace text. Otherwise it is the slice of the input from its first non-space character to just past its last one, so it starts and ends on a non-space. |
| Text.WordCount | rag_elements/enhanced_vectordb.py:210 | `len(s.split())` is the number of positions where a non-space character follows a space or the start of the text. It is zero exactly for blank text. |
| Text.WordsFromCount | rag_elements/enhanced_vectordb.py:210 | Splitting from the start of the text, its end, or a space yields one word per word start from there on. |
| Text.Basename | rag_elements/enhanced_vectordb.py:396-403 | `Path(p).name` is the slash-free tail of the path. It is the whole path, or the character just before it is a "/". |
| Text.Suffix | rag_elements/enhanced_vectordb.py:272 | `Path(p).suffix` is empty exactly when the name is shorter than two characters, has no '.' after its first character, or ends in '.'. Otherwise it is the tail of the name that starts at a '.' and holds no other '.', which is the text from the last dot. |
| Text.ParseNatToString | rag_elements/enhanced_vectordb.py:93 | The decimal rendering of an index reads back as the same number. |
| Text.JoinShape | backend/utils.py:89 | A `"sep".join(parts)` of a non-empty list has length equal to the parts' lengths plus one separator between each pair, and it opens with the first part. |
| Sentences.SentencesFrom | rag_elements/enhanced_vectordb.py:99-111 | The scan from any position segments the rest of the text. The spans tile the text from that position, and each closes at the end of the next `[.!?]+\s+` match from its start, or at the end of the text. Each carries the stripped, non-empty slice it covers, only whitespace follows the last one, and there are none exactly when the rest is blank. |
| Sentences.ExtractSentences | rag_elements/enhanced_vectordb.py:95-113 | `_extract_sentences` returns nothing exactly for blank text. Otherwise the spans start at 0 and are contiguous. Each closes at the end of the next `[.!?]+\s+` match from its start, or at the end of the text, and carries the stripped, non-empty slice it covers. Only whitespace follows the last span. |
| Sentences.SegmentsUnique | rag_elements/enhanced_vectordb.py:99-111 | At most one sequence of spans segments the text from a given position: the conditions above fix every span. |
| Sentences.ExtractSentencesUnique | rag_elements/enhanced_vectordb.py:95-113 | Any spans that start at 0, tile the text, close where the pattern dictates and leave only whitespace after them are exactly the result of `_extract_sentences`. |
| ChunkIds.ChunkId | rag_elements/enhanced_vectordb.py:89-93 | The id is the first 8 hex digits of the source's MD5, "_", the decimal index, "_", then the first 8 of the content's MD5, with the source first. |
| ChunkIds.ParseChunkIdRoundTrip | rag_elements/enhanced_vectordb.py:89-93 | Splitting an id at its underscores recovers both hash prefixes and the index. |
| ChunkIds.ChunkIdsDistinctByIndex | rag_elements/enhanced_vectordb.py:89-93 | Two chunks of one source at different indices get different ids, whatever their contents. |
| Services.ResolveApiKey | backend/utils.py:23-29 | `groq_api_key or os.getenv(...)`: a non-empty argument wins. Otherwise the environment's key is used, or "" when it is missing. |
| Services.NewProcessor | rag_elements/enhanced_vectordb.py:37-69 | A new processor has no store and no processed documents. Its key is the argument when that is non-empty, else `GROQ_API_KEY` from the environment, else "". It has chat and vision models exactly when the argument or the environment supplies a non-empty key. |
| Extraction.ExtractTextFromImage | rag_elements/enhanced_vectordb.py:115-159 | OCR yields "" exactly when any of these holds: no vision model, the call raises, the reply is blank, or the stripped reply reads "no text found" in any letter case. Otherwise it yields the stripped reply. |
| Extraction.ProcessText | rag_elements/enhanced_vectordb.py:196-225 | A text file yields one record iff it can be read and is not blank. That record holds the whole content, typed "text", with `char_count`, `word_count` and `sentences` taken from the content (both counts positive), and `processed_at` the processing time. It has no other key: no `page`, no `total_pages`, no chunk keys. |
| Extraction.NonBlankPages | rag_elements/enhanced_vectordb.py:168-169 | Lists the positions of the non-blank pages: each listed page has text, positions are strictly ascending, and every page with text is listed. |
| Extraction.ProcessPdf | rag_elements/enhanced_vectordb.py:161-194 | There is one record per non-blank page, in page order. Each record holds the page's text, its 1-based position among all pages as `page`, and the count of all pages (blank ones included) as `total_pages`. Each is typed "pdf" and names the file as its source. Each carries the sentence count and word count of its own text, and the processing time. A loader that raises gives nothing. |
| Extraction.ProcessImage | rag_elements/enhanced_vectordb.py:227-257 | An image yields one record, typed "image", iff OCR returns non-empty text. That text is the record's content. The record names the file as its source and carries the text's character, sentence and word counts and the processing time. |
| Extraction.Dispatch | rag_elements/enhanced_vectordb.py:72-87 | Each record an extractor yields carries the file as `source` and the extractor's type tag. |
| Extraction.ProcessFile | rag_elements/enhanced_vectordb.py:264-281 | A missing file, or one whose lower-cased suffix is not among the 14 table entries, contributes nothing. Otherwise the table's extractor runs. Every record names the file as its source. |
| Extraction.ProcessFilesAppend | rag_elements/enhanced_vectordb.py:259-285 | Processing the batch a + b gives the records of a followed by those of b. With the `ProcessFiles` step clause, the batch output is the per-file outputs joined in path order. |
| Extraction.SkippedFileContributesNothing | rag_elements/enhanced_vectordb.py:266-274 | Inserting a missing or unsupported file anywhere in a batch changes nothing. The batch does not abort. |
| Extraction.ProcessFiles | rag_elements/enhanced_vectordb.py:259-285 | An empty batch yields nothing. A non-empty batch yields the first file's records (`ProcessFile`) followed by the records of the rest. Every record of a batch names one of the batch's paths as its source. |
| Indexing.EnrichDocument | rag_elements/enhanced_vectordb.py:330-356 | A document's n chunks, in splitter order, get: `chunk_index` i, `total_chunks` n, `start_char` i*(800-100), the chunk's own word and sentence counts, and the id of (chunk, parent source, i). Every other key is the parent's. Indexing a document with chunks raises exactly when its `source` is missing or not a string. |
| Indexing.EnhancedChunks | rag_elements/enhanced_vectordb.py:330-356 | The chunk loop raises iff some document has unhashable chunks. Otherwise it yields exactly as many chunks as the splitter makes in total, each well-formed. |
| Indexing.EnhancedChunksLayout | rag_elements/enhanced_vectordb.py:330-356 | The chunks appear document by document, in piece order: chunk i of document k is entry i + (the pieces of the documents before k) of the loop's result. |
| Indexing.CreateEnhancedVectorStore | rag_elements/enhanced_vectordb.py:321-368 | Empty input returns None with the state unchanged. The build raises (state unchanged) iff a source is unhashable, there are no chunks at all, or `FAISS.from_documents` fails on the chunks. Otherwise it replaces both fields. The index then holds exactly the enriched chunks, as many as the splitter's pieces, each well formed. |
| Indexing.BuiltStoreLayout | rag_elements/enhanced_vectordb.py:330-362 | In a built index, chunk i of document k sits at entry i + (the pieces of the documents before k). |
| Indexing.ChunkIdsDistinctWithinDocument | rag_elements/enhanced_vectordb.py:334-336 | When MD5 yields hex digests, the chunks of one document have pairwise distinct ids. |
| Retrieval.CitationLabel | rag_elements/enhanced_vectordb.py:395-403 | With no string source the lookup raises. Otherwise the label is the file name followed by ", Page p" for a PDF with a truthy page, ", Chunk i+1" for text with integer index i (0 when absent), " (OCR)" for "image_ocr", and nothing for any other type. A text record whose index is not an integer raises. |
| Retrieval.Cite | rag_elements/enhanced_vectordb.py:382-403 | A hit's record raises iff its citation does. Otherwise it holds the content, the score, the citation, and each metadata field under its key or the default: "Unknown" for source, type, chunk id and time; 0 for index, word and sentence counts; None for page. |
| Retrieval.CiteAllFails | rag_elements/enhanced_vectordb.py:380-406 | The loop over hits yields nothing iff the citation of some hit raises. |
| Retrieval.CiteAllValues | rag_elements/enhanced_vectordb.py:380-406 | When no citation raises, the loop yields one record per hit, in hit order, each that hit's citation. |
| Retrieval.SearchWithCitations | rag_elements/enhanced_vectordb.py:370-412 | No store, or a raising search or citation, gives []. Otherwise there is one result per hit in hit order, each the hit's `Cite` record, carrying its content, score, source and citation. |
| Retrieval.ImageChunkCitedByName | rag_elements/enhanced_vectordb.py:236-243 | Chunks of enhanced image records are cited by the bare file name, because the label rule looks for "image_ocr" and the enhanced extractor tags images "image". |
| Retrieval.TextChunkCitation | rag_elements/enhanced_vectordb.py:398-399 | Chunk i of a text file is cited as "name, Chunk i+1". |
| Retrieval.PdfChunkCitation | rag_elements/enhanced_vectordb.py:396-397 | Every chunk of the record for a PDF's j-th non-blank page is cited as "name, Page p", with p the page's 1-based position. |
| Themes.ThemeContent | rag_elements/enhanced_vectordb.py:421-427 | The prompt content is a prefix of the results joined by "\n\n---\n\n". It is the whole join when that fits in 10000 characters, and otherwise exactly its first 10000. |
| Themes.FirstResultReachesPrompt | rag_elements/enhanced_vectordb.py:421-427 | The first result's content, up to the budget, always reaches the prompt. |
| Themes.ErrorAnalysis | rag_elements/enhanced_vectordb.py:444-450 | On an error the reply has exactly themes, summary and insights. The one "Error" theme carries the message, and insights is []. The summary is "Unable to analyze themes due to an error". |
| Themes.FallbackAnalysis | rag_elements/enhanced_vectordb.py:436-442 | An unparseable reply is wrapped with exactly three keys: the whole reply as summary, one "Analysis Available" theme whose description is the reply's first 200 characters and whose frequency is "varies", and insights ["Theme analysis completed"]. |
| Themes.AnalyzeThemes | rag_elements/enhanced_vectordb.py:414-450 | There are four outcomes: no chat model or no results gives the fixed "Unable to analyze themes" answer; parsed JSON is returned as is; an unparseable reply is wrapped; a raising call gives the error answer. |
| Persistence.Sidecar | rag_elements/enhanced_vectordb.py:461-476 | The sidecar has seven keys: `num_documents` = the count of processed documents, `num_chunks` = the index count, and one `processed_files` entry per processed document, in order. |
| Persistence.SaveVectorStore | rag_elements/enhanced_vectordb.py:452-483 | With no store nothing is written. Otherwise the index goes to the directory and the sidecar to "<dir>/enhanced_metadata.json", and nothing else changes. |
| Persistence.LoadIndex | rag_elements/enhanced_vectordb.py:487-509 | A missing index leaves the processor as it was and returns None. Otherwise the store is set. A sidecar that is not a JSON object makes the call return None after the store was set. `processed_documents` is never touched. |
| Persistence.LoadVectorStore | rag_elements/enhanced_vectordb.py:487-509 | `load_vector_store` reads "<dir>/enhanced_metadata.json": a missing index returns None and changes nothing; otherwise the store is set, and None is returned exactly when that sidecar exists but is not a JSON object. |
| Persistence.SaveThenLoad | rag_elements/enhanced_vectordb.py:452-509 | Loading what was just saved restores the saved store and returns it, keeping the loader's processed documents. |
| Persistence.SaveKeepsOtherDirectories | rag_elements/enhanced_vectordb.py:452-509 | Saving under one path string does not change what loading from another path string gives. |
| Legacy.LegacySplitter | rag_elements/vectordb.py:57-61 | The older splitter uses size 1000 and overlap 200 with the library's default separators, four of them, ending in "". |
| Legacy.LegacyMetadata | rag_elements/vectordb.py:150-156 | Older records carry only `source`, `type` and (for PDFs) `page`. |
| Legacy.LegacyProcessPdf | rag_elements/vectordb.py:141-164 | There is one record per non-blank page, in page order. `page` is taken from the loader's metadata (default 0), typed "pdf". A raising loader gives nothing. |
| Legacy.LegacyProcessText | rag_elements/vectordb.py:166-187 | A text file yields one record iff it is readable and not blank. It holds the whole content with just `source` and `type` "text". |
| Legacy.LegacyProcessImage | rag_elements/vectordb.py:189-210 | An image yields one "image_ocr" record iff OCR gives non-empty text. |
| Legacy.LegacyDispatch | rag_elements/vectordb.py:64-79 | Each record a legacy extractor yields carries the file as `source` and the type "pdf", "text" or "image_ocr". |
| Legacy.LegacyProcessFile | rag_elements/vectordb.py:257-291 | The same 14-entry table decides. Missing or unsupported files contribute nothing; any other file yields exactly what the table's legacy extractor yields. Records name the file as their source. |
| Legacy.LegacyProcessFiles | rag_elements/vectordb.py:257-291 | An empty batch yields nothing. A non-empty batch yields the first file's records (`LegacyProcessFile`) followed by the records of the rest. Every record of a batch names one of the batch's paths as its source. |
| Legacy.LegacyProcessFilesAppend | rag_elements/vectordb.py:257-291 | Processing the batch a + b gives the legacy records of a followed by those of b. |
| Legacy.LegacySkipsLikeEnhanced | rag_elements/vectordb.py:64-79 | The same gate decides for both processors. If the file exists and its suffix is in the table, each runs its own extractor for that table entry. Otherwise each yields nothing. |
| Legacy.LegacyPieces | rag_elements/vectordb.py:307-309 | Splitting gives one chunk per splitter piece, each with its parent's metadata unchanged. |
| Legacy.LegacyChunkInherits | rag_elements/vectordb.py:307-309 | Every older chunk carries the metadata of some input document. |
| Legacy.LegacyCreateVectorStore | rag_elements/vectordb.py:293-320 | Empty input returns None without touching state. No chunks at all, or a failing `FAISS.from_documents`, raises with the state unchanged. Otherwise store and documents are replaced, and the index holds exactly the chunks. |
| Legacy.LegacySidecar | rag_elements/vectordb.py:329-345 | "metadata.json" holds the document count, the index count, the model, and one source string per document. |
| Legacy.LegacySaveVectorStore | rag_elements/vectordb.py:322-350 | With no store nothing is written. Otherwise the index and "<dir>/metadata.json" are written and nothing else changes. |
| Legacy.LegacyLoadVectorStore | rag_elements/vectordb.py:352-378 | A missing index returns None and changes nothing. Otherwise the store is set, and None is returned exactly when "<dir>/metadata.json" exists but is not a JSON object. |
| Legacy.LegacySaveThenLoad | rag_elements/vectordb.py:322-378 | Loading what was saved restores the saved store. |
| Legacy.LegacySearch | rag_elements/vectordb.py:380-402 | No store, or a raising search, gives []. Otherwise the hits' documents are returned in order. |
| Legacy.LegacyImageChunkCitation | rag_elements/vectordb.py:196-201 | Older image chunks are cited "name (OCR)" by the citation rule. |
| Legacy.LegacyTextChunkCitation | rag_elements/vectordb.py:173-180 | Older text chunks lack `chunk_index`, so every one is cited "name, Chunk 1". |
| Legacy.LegacyFirstPageCitation | rag_elements/vectordb.py:154 | A chunk of an older PDF page whose loader page number is 0 is cited by the bare name, because 0 is falsy. |
| Stats.CalculateProcessingStats | backend/utils.py:52-73 | With no index the call raises. Otherwise `total_files` is the number of distinct sources ("unknown" when missing) and `total_documents` the document count. Each source is counted once, under its first document's type, so the counts are positive and sum to `total_files`. `file_types` lists the keys in first-seen order, without repeats. |
| Session.UpdateGlobalState | backend/utils.py:129-140 | Only the keys passed change; every other state variable keeps its value. |
| Session.UpdatesCompose | backend/utils.py:129-140 | Two updates in a row equal one update with the later values winning. |
| Session.ClearSessionData | backend/utils.py:143-152 | History becomes [], loaded false, stats {}. The processor instance is kept, with no store and its other fields untouched. |
| Session.ClearedSearchFindsNothing | backend/utils.py:143-152 | After clearing, a search through the kept processor returns []. |
| Session.InitializeProcessor | backend/utils.py:23-32 | Without a key from the argument or the environment the call fails with 400 "GROQ API key is required" and changes nothing. Otherwise a fresh processor is installed and returned. |
| Session.GetProcessor | backend/utils.py:35-40 | An existing processor is returned as is. Only when there is none is one initialised from the environment. |
| Session.GetProcessorStable | backend/utils.py:35-40 | Once a processor exists, a second call returns the same one and leaves the state unchanged. |
| Session.Preview | backend/utils.py:87 | Content of at most 200 characters is shown whole. Longer content shows its first 200 characters followed by "...". |
| Session.FallbackParts | backend/utils.py:78-87 | Without a model the answer is a header naming the result count, the "Key Information" line, then one numbered preview for each of at most three results. |
| Session.GenerateResponse | backend/utils.py:76-116 | There are three outcomes: the fallback lines joined by "\n"; the model's reply; or, when the call raises, the fixed sentence naming the query and the result count. |
| Session.FallbackOpensWithHeader | backend/utils.py:78-89 | The no-model answer opens with the header line. |

## Left out

- File I/O, PDF parsing, OCR, MD5, similarity search, JSON parsing and the
  chat model are caller-supplied functions, so their own behaviour is not
  modelled. Similarity scores are carried along without meaning.
- Embeddings are not modelled. Whether `FAISS.from_documents` succeeds on a
  list of chunks is the caller-supplied predicate `canIndex`. A built index is
  the list of its chunks.
- LangChain's `RecursiveCharacterTextSplitter` is a caller-supplied function
  from text and splitter settings to pieces. The model fixes only the settings
  it is given. `split_documents` copying the parent's metadata onto each piece
  is modelled.
- Timestamps (`datetime.now()`) are a `now` parameter. The stats'
  `processed_at` is that parameter.
- `process_directory` (filesystem globbing, both processors) is left out:
  it only lists paths and then does what `process_files` does.
- Logging and the `LOG_LEVEL`/`LOG_FORMAT` constants are kept as constants
  only.
- Prompts are built and passed to the chat function. The OCR function takes
  the prompt and the image path; the base64 encoding of the image is folded
  into it.
- The default `k` of `search_with_citations` (`Config.DefaultSearchK`, 5) and
  of the legacy `search_similar_documents` (5) is not applied: callers pass
  `k` explicitly.
- `Text.Lower` lower-cases ASCII only. `Path.name` is the text after the last
  "/".
- JSON numbers are integers. Float scores in results and Python booleans in
  metadata are not representable.
- A search result without a "content" key cannot be represented, so the
  `KeyError` paths of `analyze_themes` and `generate_response` that it would
  take are not modelled.
- I/O failures while saving are not modelled: a save with a store always
  writes both files.
- `get_global_state`, `save_uploaded_file`, the FastAPI routes, the Streamlit
  app and the browser script are not part of this model. The stats fold in
  the Streamlit app duplicates `calculate_processing_stats`.
- Concurrency on the module-level globals is not modelled.
- Extraction.SupportedExtensions: has no contract of its own. The table's 14
  entries are written out as a map literal, and its use is covered by
  `Extraction.ProcessFile` and `Legacy.LegacySkipsLikeEnhanced`.
- Persistence.SaveKeepsOtherDirectories: directories are compared as path
  strings, and the disk is keyed by them. Aliases of one directory ("a",
  "a/", "./a") are different keys. The model therefore says a load from "a/"
  does not see a save to "a", whereas on a file system it does.
- Text.Basename: does not model `pathlib` normalisation (trailing slashes,
  "." components).

## Notes on the code

- Chunk ids put the source hash first: `source_hash_index_content_hash`.
- Saving without a store is a silent no-op that only logs. It is not an
  error.
- Building a store from documents that produce no chunks at all raises,
  because FAISS cannot build an empty index. It therefore behaves as an
  exception, not as the "no documents" guard.
- The enhanced extractor tags images "image" while its citation rule looks for
  "image_ocr". Enhanced image chunks are therefore cited by the bare file name.
  The older processor tags them "image_ocr" and so gets "(OCR)".
- A match of the sentence pattern consumes the whitespace after the
  punctuation. The last span therefore also ends at the end of the text when
  the text ends with punctuation followed by whitespace, not only when
  non-whitespace text follows the last match.
- The older processor's PDF `page` comes from the loader's 0-based metadata.
  The first page is therefore falsy, and its chunks are cited by the bare file
  name.

=== FILE: chunk_ids.dfy ===
/** Content-addressed chunk identifiers: `{source_hash}_{chunk_index}_{content_hash}`,
    where each hash is a prefix of an MD5 hex digest. MD5 itself is a parameter. */
module ChunkIds {
  import opened Wrappers
  import opened Text
  import Config

  predicate IsLowerHex(c: char) {
    ('0' <= c <= '9') || ('a' <= c <= 'f')
  }

  /** What `hashlib.md5(...).hexdigest()` returns: 32 lower-case hex digits. */
  predicate IsHexDigest(h: string) {
    |h| == 32 && forall i :: 0 <= i < |h| ==> IsLowerHex(h[i])
  }

  /** `_generate_chunk_id(content, source, chunk_index)`; `md5` stands for
      MD5 over the UTF-8 encoding followed by `hexdigest()`. */
  function ChunkId(md5: string -> string, content: string, source: string, index: nat): (id: string)
    ensures IsHexDigest(md5(source)) && IsHexDigest(md5(content)) ==>
      && |id| == Config.SourceHashLength + 1 + |NatToString(index)| + 1 + Config.ContentHashLength
      && id[..8] == md5(source)[..8]
      && id[|id| - 8..] == md5(content)[..8]
  {
    Take(md5(source), Config.SourceHashLength) + "_" + NatToString(index) + "_"
      + Take(md5(content), Config.ContentHashLength)
  }

  /** The three fields an id is built from. */
  datatype ChunkIdParts = ChunkIdParts(sourceHash: string, index: nat, contentHash: string)

  /** Reads an id back into its fields: an 8-character source hash, '_', a
      decimal index, '_', an 8-character content hash. */
  function ParseChunkId(id: string): Option<ChunkIdParts> {
    if |id| < 19 || id[8] != '_' || id[|id| - 9] != '_' then None
    else
      match ParseNat(id[9..|id| - 9])
      case None => None
      case Some(n) => Some(ChunkIdParts(id[..8], n, id[|id| - 8..]))
  }

  /** Round trip: parsing an id recovers the source-hash prefix, the chunk
      index and the content-hash prefix it was built from. */
  lemma ParseChunkIdRoundTrip(md5: string -> string, content: string, source: string, index: nat)
    requires IsHexDigest(md5(source)) && IsHexDigest(md5(content))
    ensures ParseChunkId(ChunkId(md5, content, source, index))
         == Some(ChunkIdParts(md5(source)[..8], index, md5(content)[..8]))
  {
    var sh := md5(source)[..8];
    var ch := md5(content)[..8];
    var digits := NatToString(index);
    var id := ChunkId(md5, content, source, index);
    assert id == sh + "_" + digits + "_" + ch;
    assert id[8] == '_';
    assert id[|id| - 9] == '_';
    assert id[9..|id| - 9] == digits;
    ParseNatToString(index);
  }

  /** Two chunks of the same source with different indices never share an
      id, whatever their contents. */
  lemma ChunkIdsDistinctByIndex(md5: string -> string, c1: string, c2: string, source: string, i: nat, j: nat)
    requires IsHexDigest(md5(source)) && IsHexDigest(md5(c1)) && IsHexDigest(md5(c2))
    requires i != j
    ensures ChunkId(md5, c1, source, i) != ChunkId(md5, c2, source, j)
  {
    ParseChunkIdRoundTrip(md5, c1, source, i);
    ParseChunkIdRoundTrip(md5, c2, source, j);
  }
}

=== FILE: config.dfy ===
/** The tunable constants of the enhanced document processor (class `Config`). */
module Config {

  const ChatLlmModel: string := "llama-3.3-70b-versatile"
  const VisionLlmModel: string := "meta-llama/llama-4-scout-17b-16e-instruct"
  const EmbeddingsModel: string := "all-MiniLM-L6-v2"

  const ChunkSize: nat := 800
  const ChunkOverlap: nat := 100
  const ChunkSeparators: seq<string> := ["\n\n", "\n", ". ", "! ", "? ", " ", ""]

  const DefaultSearchK: nat := 5

  const ContentHashLength: nat := 8
  const SourceHashLength: nat := 8

  const LogLevel: string := "INFO"
  const LogFormat: string := "%(asctime)s - %(levelname)s - %(message)s"

  /** The instruction sent with every image to the vision model. */
  const OcrPrompt: string :=
    "Extract all the text from this image. "
    + "Preserve the structure and formatting as much as possible. "
    + "If there's no text, return 'No text found'."

  /** The theme-analysis prompt template around its two placeholders,
      `{query}` and `{content}`, with its doubled braces already read as
      single ones. */
  const ThemePromptHead: string :=
    "\n    Analyze the following document excerpts and identify common themes related to the query: \""
  const ThemePromptMiddle: string :=
    "\"\n\n    Document excerpts:\n    "
  const ThemePromptTail: string :=
    "\n\n    Please provide:\n"
    + "    1. A list of 3-5 main themes/topics that appear across these documents\n"
    + "    2. A brief summary of how these themes relate to the query\n"
    + "    3. Key insights or patterns you notice\n"
    + "\n"
    + "    Format your response as JSON with the following structure:\n"
    + "    {\n"
    + "        \"themes\": [\n"
    + "            {\"name\": \"Theme Name\", \"description\": \"Brief description\", \"frequency\": \"how often it appears\"},\n"
    + "            ...\n"
    + "        ],\n"
    + "        \"summary\": \"Overall summary of themes\",\n"
    + "        \"insights\": [\"Key insight 1\", \"Key insight 2\", ...]\n"
    + "    }\n"
    + "    "

  /** `str.format` on a template with two placeholders, cut into the text
      before, between and after them: both values appear verbatim at fixed
      places. */
  function FillTemplate(head: string, query: string, middle: string, content: string, tail: string): (text: string)
    ensures |text| == |head| + |query| + |middle| + |content| + |tail|
    ensures text[..|head|] == head && text[|head|..|head| + |query|] == query
    ensures var at := |head| + |query| + |middle|;
      text[at - |middle|..at] == middle && text[at..at + |content|] == content && text[at + |content|..] == tail
  {
    head + query + middle + content + tail
  }

  /** `THEME_ANALYSIS_PROMPT_TEMPLATE.format(query=query, content=content)`. */
  function ThemePrompt(query: string, content: string): string {
    FillTemplate(ThemePromptHead, query, ThemePromptMiddle, content, ThemePromptTail)
  }

  const EnableRecursiveDirectoryProcessing: bool := true
  const MaxContentLengthForThemeAnalysis: nat := 10000

  const EnhancedMetadataFilename: string := "enhanced_metadata.json"

  const EnableDangerousDeserialization: bool := true

  /** The parameters handed to the recursive character splitter. */
  datatype Splitter = Splitter(size: nat, overlap: nat, separators: seq<string>)

  /** The splitter the enhanced processor builds from the constants above: the
      overlap is smaller than the chunk size, and the separator priority list
      ends with the empty separator, so every piece can be split further. */
  function EnhancedSplitter(): (s: Splitter)
    ensures s.overlap < s.size
    ensures |s.separators| == 7 && s.separators[0] == "\n\n" && s.separators[6] == ""
    ensures forall i :: 0 <= i < |s.separators| - 1 ==> s.separators[i] != ""
  {
    Splitter(ChunkSize, ChunkOverlap, ChunkSeparators)
  }

  /** The distance between the recorded `start_char` of consecutive chunks:
      chunk size minus overlap, which is positive. */
  function ChunkStride(): (stride: nat)
    ensures stride > 0
    ensures stride + ChunkOverlap == ChunkSize
  {
    ChunkSize - ChunkOverlap
  }
}

=== FILE: extraction.dfy ===
/** The type-dispatched extractor of the enhanced processor: the extension
    table, the three per-type extractors and `process_files`. */
module Extraction {
  import opened Wrappers
  import opened Text
  import opened Values
  import opened Sentences
  import opened Services
  import Config

  datatype FileKind = PdfKind | TextKind | ImageKind

  /** `self.supported_extensions`: 14 lower-case extensions and their extractor. */
  function SupportedExtensions(): map<string, FileKind>
  {
    map[
      ".pdf" := PdfKind,
      ".txt" := TextKind, ".md" := TextKind, ".py" := TextKind, ".js" := TextKind,
      ".html" := TextKind, ".csv" := TextKind, ".json" := TextKind,
      ".png" := ImageKind, ".jpg" := ImageKind, ".jpeg" := ImageKind,
      ".bmp" := ImageKind, ".tiff" := ImageKind, ".webp" := ImageKind
    ]
  }

  /** The extractor the table names for an extension, if any. */
  function KindOf(ext: string): Option<FileKind> {
    if ext in SupportedExtensions() then Some(SupportedExtensions()[ext]) else None
  }

  /** `Path(p).suffix.lower()`. */
  function ExtensionOf(path: string): string {
    Lower(Suffix(path))
  }

  /** The OCR reply that means "this image holds no text". */
  predicate IsNoTextReply(text: string) {
    Lower(text) == "no text found"
  }

  /** `extract_text_from_image`, sending `prompt` with the image: "" without
      a vision model or when the call raises; otherwise the stripped reply,
      unless that reads "no text found" in any letter case. */
  function ExtractTextFromImage(svc: Services, p: Processor, prompt: string, path: string): (text: string)
    ensures text == [] <==>
      || !p.HasVisionModel()
      || svc.ocr(prompt, path).None?
      || Blank(svc.ocr(prompt, path).value)
      || IsNoTextReply(Strip(svc.ocr(prompt, path).value))
    ensures text != [] ==> text == Strip(svc.ocr(prompt, path).value) && !IsSpace(text[0])
  {
    if !p.HasVisionModel() then ""
    else
      match svc.ocr(prompt, path)
      case None => ""
      case Some(reply) =>
        var extracted := Strip(reply);
        if IsNoTextReply(extracted) then "" else extracted
  }

  /** Metadata shared by all three extractors. */
  function BaseMetadata(path: string, docType: string, text: string, now: string): Metadata {
    EmptyMetadata.(
      source := Some(VStr(path)),
      docType := Some(VStr(docType)),
      sentences := Some(VInt(|ExtractSentences(text)|)),
      wordCount := Some(VInt(WordCount(text))),
      processedAt := Some(VStr(now)))
  }

  /** A record for non-blank text: its word and sentence counts are positive. */
  lemma NonBlankCounts(text: string)
    requires !Blank(text)
    ensures WordCount(text) > 0 && |ExtractSentences(text)| > 0
  {
  }

  /** `_process_text`: one "text" record holding the whole file exactly when
      it can be read and is not blank; its metadata has exactly the source,
      type, the three counts and the processing time. */
  function ProcessText(svc: Services, path: string, now: string): (docs: seq<Document>)
    ensures |docs| <= 1
    ensures |docs| == 1 <==> svc.readText(path).Some? && !Blank(svc.readText(path).value)
    ensures |docs| == 1 ==>
      && docs[0].content == svc.readText(path).value
      && docs[0].metadata == EmptyMetadata.(
           source := Some(VStr(path)),
           docType := Some(VStr("text")),
           charCount := Some(VInt(|docs[0].content|)),
           wordCount := Some(VInt(WordCount(docs[0].content))),
           sentences := Some(VInt(|ExtractSentences(docs[0].content)|)),
           processedAt := Some(VStr(now)))
      && WordCount(docs[0].content) > 0
      && |ExtractSentences(docs[0].content)| > 0
  {
    match svc.readText(path)
    case None => []
    case Some(content) =>
      if Strip(content) != [] then
        NonBlankCounts(content);
        [Document(content, BaseMetadata(path, "text", content, now).(charCount := Some(VInt(|content|))))]
      else []
  }

  /** The record for page `i` of a PDF, numbered from 1. */
  function PdfDocument(path: string, pages: seq<PdfPage>, i: nat, now: string): Document
    requires i < |pages|
  {
    var text := pages[i].content;
    Document(text, BaseMetadata(path, "pdf", text, now).(page := Some(VInt(i + 1)), totalPages := Some(VInt(|pages|))))
  }

  /** `page.page_content.strip()` is non-empty, that is, the page is not blank. */
  predicate HasText(page: PdfPage) {
    !Blank(page.content)
  }

  /** The positions from `k` on whose flag is set: ascending, and all of them. */
  function SetPositionsFrom(flags: seq<bool>, k: nat): (idx: seq<nat>)
    requires k <= |flags|
    ensures forall j :: 0 <= j < |idx| ==> k <= idx[j] < |flags| && flags[idx[j]]
    ensures forall j :: 0 < j < |idx| ==> idx[j - 1] < idx[j]
    ensures forall i :: k <= i < |flags| && flags[i] ==> i in idx
    decreases |flags| - k
  {
    if k == |flags| then []
    else
      var rest := SetPositionsFrom(flags, k + 1);
      if flags[k] then
        PrependPosition(flags, k, rest);
        [k] + rest
      else
        rest
  }

  /** A set position `k` put in front of the set positions after it gives
      the set positions from `k` on. */
  lemma PrependPosition(flags: seq<bool>, k: nat, rest: seq<nat>)
    requires k < |flags| && flags[k]
    requires forall j :: 0 <= j < |rest| ==> k + 1 <= rest[j] < |flags| && flags[rest[j]]
    requires forall j :: 0 < j < |rest| ==> rest[j - 1] < rest[j]
    requires forall i :: k + 1 <= i < |flags| && flags[i] ==> i in rest
    ensures var idx := [k] + rest;
      && (forall j :: 0 <= j < |idx| ==> k <= idx[j] < |flags| && flags[idx[j]])
      && (forall j :: 0 < j < |idx| ==> idx[j - 1] < idx[j])
      && (forall i :: k <= i < |flags| && flags[i] ==> i in idx)
  {
    var idx := [k] + rest;
    assert forall j :: 0 < j < |idx| ==> idx[j] == rest[j - 1];
  }

  /** The positions of the non-blank pages: ascending, each non-blank, and
      every non-blank page among them. */
  function NonBlankPages(pages: seq<PdfPage>): (idx: seq<nat>)
    ensures forall j :: 0 <= j < |idx| ==> idx[j] < |pages| && HasText(pages[idx[j]])
    ensures forall j :: 0 < j < |idx| ==> idx[j - 1] < idx[j]
    ensures forall i :: 0 <= i < |pages| && HasText(pages[i]) ==> i in idx
  {
    SetPositionsFrom(seq(|pages|, i requires 0 <= i < |pages| => HasText(pages[i])), 0)
  }

  /** Entry `j` of `docs` is the record of page `idx[j]`: that page's text,
      its 1-based number, the page count of the whole file, the "pdf" tag,
      the file as source, the sentence and word counts of the text, and the
      processing time. */
  predicate IsPageRecord(path: string, pages: seq<PdfPage>, idx: seq<nat>, now: string, docs: seq<Document>, j: nat) {
    && j < |docs| && j < |idx| && idx[j] < |pages|
    && docs[j].content == pages[idx[j]].content
    && docs[j].metadata.page == Some(VInt(idx[j] + 1))
    && docs[j].metadata.totalPages == Some(VInt(|pages|))
    && docs[j].metadata.docType == Some(VStr("pdf"))
    && docs[j].metadata.source == Some(VStr(path))
    && docs[j].metadata.sentences == Some(VInt(|ExtractSentences(docs[j].content)|))
    && docs[j].metadata.wordCount == Some(VInt(WordCount(docs[j].content)))
    && docs[j].metadata.processedAt == Some(VStr(now))
  }

  /** `_process_pdf`: one "pdf" record per non-blank page, in page order, each
      numbered from 1 and carrying the page count of the whole file (blank
      pages included) and the counts of its own text; nothing when the loader
      raises. */
  function ProcessPdf(svc: Services, path: string, now: string): (docs: seq<Document>)
    ensures svc.loadPdf(path).None? ==> docs == []
    ensures svc.loadPdf(path).Some? ==>
      var pages := svc.loadPdf(path).value;
      var idx := NonBlankPages(pages);
      && |docs| == |idx|
      && (forall j :: 0 < j < |docs| ==> idx[j - 1] < idx[j])
      && forall j :: 0 <= j < |docs| ==> IsPageRecord(path, pages, idx, now, docs, j)
  {
    match svc.loadPdf(path)
    case None => []
    case Some(pages) =>
      var idx := NonBlankPages(pages);
      seq(|idx|, j requires 0 <= j < |idx| => PdfDocument(path, pages, idx[j], now))
  }

  /** `_process_image`: one "image" record holding the OCR text, unless that
      text is empty. */
  function ProcessImage(svc: Services, p: Processor, path: string, now: string): (docs: seq<Document>)
    ensures |docs| <= 1
    ensures |docs| == 1 <==> ExtractTextFromImage(svc, p, Config.OcrPrompt, path) != []
    ensures |docs| == 1 ==>
      && docs[0].content == ExtractTextFromImage(svc, p, Config.OcrPrompt, path)
      && docs[0].metadata.source == Some(VStr(path))
      && docs[0].metadata.docType == Some(VStr("image"))
      && docs[0].metadata.charCount == Some(VInt(|docs[0].content|))
      && docs[0].metadata.sentences == Some(VInt(|ExtractSentences(docs[0].content)|))
      && docs[0].metadata.wordCount == Some(VInt(WordCount(docs[0].content)))
      && docs[0].metadata.processedAt == Some(VStr(now))
  {
    var text := ExtractTextFromImage(svc, p, Config.OcrPrompt, path);
    if text != [] then
      [Document(text, BaseMetadata(path, "image", text, now).(charCount := Some(VInt(|text|))))]
    else []
  }

  /** Every record of a PDF names the file as source and is typed "pdf". */
  lemma PdfRecordsTagged(svc: Services, path: string, now: string)
    ensures forall j :: 0 <= j < |ProcessPdf(svc, path, now)| ==>
      && ProcessPdf(svc, path, now)[j].metadata.source == Some(VStr(path))
      && ProcessPdf(svc, path, now)[j].metadata.docType == Some(VStr("pdf"))
  {
    var docs := ProcessPdf(svc, path, now);
    if svc.loadPdf(path).Some? {
      var pages := svc.loadPdf(path).value;
      forall j | 0 <= j < |docs|
        ensures docs[j].metadata.source == Some(VStr(path)) && docs[j].metadata.docType == Some(VStr("pdf"))
      {
        assert IsPageRecord(path, pages, NonBlankPages(pages), now, docs, j);
      }
    }
  }

  /** The "type" tag each extractor writes. */
  function TypeTag(kind: FileKind): string {
    match kind
    case PdfKind => "pdf"
    case TextKind => "text"
    case ImageKind => "image"
  }

  /** Runs the extractor of one table entry on an existing file; every record
      it yields carries the file as source and the extractor's type tag. */
  function Dispatch(svc: Services, p: Processor, kind: FileKind, path: string, now: string): (docs: seq<Document>)
    ensures forall j :: 0 <= j < |docs| ==>
      && docs[j].metadata.source == Some(VStr(path))
      && docs[j].metadata.docType == Some(VStr(TypeTag(kind)))
  {
    match kind
    case PdfKind => PdfRecordsTagged(svc, path, now); ProcessPdf(svc, path, now)
    case TextKind => ProcessText(svc, path, now)
    case ImageKind => ProcessImage(svc, p, path, now)
  }

  /** One iteration of `process_files`: a missing file or an extension
      outside the table contributes nothing (and raises nothing); otherwise
      the extractor the table names runs. */
  function ProcessFile(svc: Services, p: Processor, path: string, now: string): (docs: seq<Document>)
    ensures !svc.fileExists(path) || KindOf(ExtensionOf(path)).None? ==> docs == []
    ensures svc.fileExists(path) && KindOf(ExtensionOf(path)).Some? ==>
      docs == Dispatch(svc, p, KindOf(ExtensionOf(path)).value, path, now)
    ensures forall d :: d in docs ==> d.metadata.source == Some(VStr(path))
  {
    if !svc.fileExists(path) then []
    else
      var kind := KindOf(ExtensionOf(path));
      if kind.None? then [] else Dispatch(svc, p, kind.value, path, now)
  }

  /** `for x in xs: out.extend(f(x))`. */
  function ConcatMap<T, U>(f: T -> seq<U>, xs: seq<T>): seq<U>
    decreases |xs|
  {
    if xs == [] then [] else f(xs[0]) + ConcatMap(f, xs[1..])
  }

  lemma {:induction false} ConcatMapAppend<T, U>(f: T -> seq<U>, a: seq<T>, b: seq<T>)
    ensures ConcatMap(f, a + b) == ConcatMap(f, a) + ConcatMap(f, b)
    decreases |a|
  {
    if a == [] {
      assert a + b == b;
    } else {
      assert (a + b)[0] == a[0];
      assert (a + b)[1..] == a[1..] + b;
      ConcatMapAppend(f, a[1..], b);
    }
  }

  /** Element `i` of the output of `xs[k]` sits right after the outputs of
      the elements before it. */
  lemma ConcatMapLayout<T, U>(f: T -> seq<U>, xs: seq<T>, k: nat, i: nat)
    requires k < |xs| && i < |f(xs[k])|
    ensures |ConcatMap(f, xs[..k])| + i < |ConcatMap(f, xs)|
    ensures ConcatMap(f, xs)[|ConcatMap(f, xs[..k])| + i] == f(xs[k])[i]
  {
    assert xs == xs[..k] + xs[k..];
    ConcatMapAppend(f, xs[..k], xs[k..]);
    assert xs[k..][0] == xs[k];
  }

  /** An element whose output is empty contributes nothing. */
  lemma ConcatMapSkip<T, U>(f: T -> seq<U>, a: seq<T>, x: T, b: seq<T>)
    requires f(x) == []
    ensures ConcatMap(f, a + [x] + b) == ConcatMap(f, a + b)
  {
    ConcatMapAppend(f, a + [x], b);
    ConcatMapAppend(f, a, [x]);
    ConcatMapAppend(f, a, b);
    assert ConcatMap(f, [x]) == f(x) + ConcatMap(f, []);
  }

  lemma {:induction false} ConcatMapMember<T, U>(f: T -> seq<U>, xs: seq<T>, u: U)
    requires u in ConcatMap(f, xs)
    ensures exists x :: x in xs && u in f(x)
    decreases |xs|
  {
    if u !in f(xs[0]) {
      ConcatMapMember(f, xs[1..], u);
    }
  }

  /** The document names one of `paths` as its source. */
  predicate SourceAmong(d: Document, paths: seq<string>) {
    d.metadata.source.Some? && d.metadata.source.value.VStr? && d.metadata.source.value.s in paths
  }

  /** `process_files`: the per-file outputs concatenated in input order, so
      every record names one of the batch's paths as its source. */
  function ProcessFiles(svc: Services, p: Processor, paths: seq<string>, now: string): (docs: seq<Document>)
    ensures paths == [] ==> docs == []
    ensures paths != [] ==> docs == ProcessFile(svc, p, paths[0], now) + ProcessFiles(svc, p, paths[1..], now)
    decreases |paths|
    ensures forall d :: d in docs ==> SourceAmong(d, paths)
  {
    var f := (path: string) => ProcessFile(svc, p, path, now);
    var docs := ConcatMap(f, paths);
    assert forall d :: d in docs ==> SourceAmong(d, paths) by {
      forall d | d in docs
        ensures SourceAmong(d, paths)
      {
        ConcatMapMember(f, paths, d);
        var x :| x in paths && d in f(x);
        assert f(x) == ProcessFile(svc, p, x, now);
      }
    }
    docs
  }

  /** Processing two batches one after the other gives the same records as
      processing them together. */
  lemma ProcessFilesAppend(svc: Services, p: Processor, a: seq<string>, b: seq<string>, now: string)
    ensures ProcessFiles(svc, p, a + b, now) == ProcessFiles(svc, p, a, now) + ProcessFiles(svc, p, b, now)
  {
    ConcatMapAppend((path: string) => ProcessFile(svc, p, path, now), a, b);
  }

  /** A missing or unsupported file in the middle of a batch changes nothing:
      the batch yields what it yields without that file. */
  lemma SkippedFileContributesNothing(svc: Services, p: Processor, a: seq<string>, x: string, b: seq<string>, now: string)
    requires !svc.fileExists(x) || KindOf(ExtensionOf(x)).None?
    ensures ProcessFiles(svc, p, a + [x] + b, now) == ProcessFiles(svc, p, a + b, now)
  {
    var f := (path: string) => ProcessFile(svc, p, path, now);
    assert f(x) == [];
    ConcatMapSkip(f, a, x, b);
  }
}

=== FILE: indexing.dfy ===
/** `create_enhanced_vector_store`: every processed document is split into
    chunks, each chunk inherits its parent's metadata and gains an id, its
    position, its counts and its nominal start offset, and the chunks become
    the new index of the processor. */
module Indexing {
  import opened Wrappers
  import opened Text
  import opened Values
  import opened Sentences
  import opened ChunkIds
  import opened Services
  import opened Config
  import Extraction

  /** The pieces the enhanced splitter cuts a document into. */
  function Pieces(svc: Services, doc: Document): seq<string> {
    svc.split(doc.content, EnhancedSplitter())
  }

  /** `doc.metadata["source"]` as `_generate_chunk_id` can hash it: a missing
      key raises `KeyError`, a non-string value has no `encode`. */
  function SourceText(md: Metadata): Option<string> {
    if md.source.Some? && md.source.value.VStr? then Some(md.source.value.s) else None
  }

  /** The document makes the build raise: it has at least one chunk, so its
      source is hashed, and that source is missing or not a string. */
  predicate Unhashable(svc: Services, doc: Document) {
    Pieces(svc, doc) != [] && SourceText(doc.metadata).None?
  }

  /** `{**chunk.metadata, "chunk_id": ..., ...}` for piece `i` of `n`. */
  function ChunkMetadata(parent: Metadata, id: string, i: nat, n: nat, piece: string): Metadata {
    parent.(
      chunkId := Some(VStr(id)),
      chunkIndex := Some(VInt(i)),
      totalChunks := Some(VInt(n)),
      chunkSentences := Some(VInt(|ExtractSentences(piece)|)),
      chunkWordCount := Some(VInt(WordCount(piece))),
      startChar := Some(VInt(i * ChunkStride())))
  }

  /** The metadata with the six chunk keys put back to the parent's values. */
  function WithoutChunkKeys(md: Metadata, parent: Metadata): Metadata {
    md.(
      chunkId := parent.chunkId,
      chunkIndex := parent.chunkIndex,
      totalChunks := parent.totalChunks,
      chunkSentences := parent.chunkSentences,
      chunkWordCount := parent.chunkWordCount,
      startChar := parent.startChar)
  }

  /** Entry `i` of `cs` is chunk `i` of `doc`: it holds piece `i`, knows its
      index and the number of pieces, carries the id built from its source,
      index and content, and keeps every other key of the document unchanged. */
  predicate IsChunk(svc: Services, doc: Document, cs: seq<Document>, i: nat)
    requires i < |cs|
  {
    var pieces := Pieces(svc, doc);
    && i < |pieces|
    && SourceText(doc.metadata).Some?
    && cs[i].content == pieces[i]
    && cs[i].metadata.chunkIndex == Some(VInt(i))
    && cs[i].metadata.totalChunks == Some(VInt(|pieces|))
    && cs[i].metadata.chunkId == Some(VStr(ChunkId(svc.md5, pieces[i], SourceText(doc.metadata).value, i)))
    && cs[i].metadata.startChar == Some(VInt(i * (ChunkSize - ChunkOverlap)))
    && cs[i].metadata.chunkWordCount == Some(VInt(WordCount(pieces[i])))
    && cs[i].metadata.chunkSentences == Some(VInt(|ExtractSentences(pieces[i])|))
    && WithoutChunkKeys(cs[i].metadata, doc.metadata) == doc.metadata
  }

  /** The chunk documents of one processed document, in piece order: one
      chunk per piece, each as `IsChunk` describes it. The document raises
      exactly when it is `Unhashable`. */
  function EnrichDocument(svc: Services, doc: Document): (r: Option<seq<Document>>)
    ensures r.None? <==> Unhashable(svc, doc)
    ensures r.Some? ==> |r.value| == |Pieces(svc, doc)|
    ensures r.Some? ==> forall i :: 0 <= i < |r.value| ==> IsChunk(svc, doc, r.value, i)
  {
    var pieces := Pieces(svc, doc);
    if pieces == [] then Some([])
    else
      match SourceText(doc.metadata)
      case None => None
      case Some(source) =>
        Some(seq(|pieces|, i requires 0 <= i < |pieces| =>
          Document(pieces[i], ChunkMetadata(doc.metadata, ChunkId(svc.md5, pieces[i], source, i), i, |pieces|, pieces[i]))))
  }

  /** The number of pieces the splitter makes of all documents together. */
  function PieceCount(svc: Services, docs: seq<Document>): nat
    decreases |docs|
  {
    if docs == [] then 0 else |Pieces(svc, docs[0])| + PieceCount(svc, docs[1..])
  }

  /** A chunk as the build leaves it: a string source, and an index below
      the number of chunks of its parent. */
  predicate WellFormedChunk(c: Document) {
    && SourceText(c.metadata).Some?
    && c.metadata.chunkIndex.Some? && c.metadata.chunkIndex.value.VInt?
    && c.metadata.totalChunks.Some? && c.metadata.totalChunks.value.VInt?
    && 0 <= c.metadata.chunkIndex.value.i < c.metadata.totalChunks.value.i
  }

  /** The loop over all documents: the chunks of each document in turn, or
      `None` as soon as one document raises. The chunks number as many as the
      splitter's pieces of all documents, and each one is well formed. */
  function EnhancedChunks(svc: Services, docs: seq<Document>): (r: Option<seq<Document>>)
    ensures r.None? <==> exists d :: d in docs && Unhashable(svc, d)
    ensures r.Some? ==> |r.value| == PieceCount(svc, docs)
    ensures r.Some? ==> forall c :: c in r.value ==> WellFormedChunk(c)
    decreases |docs|
  {
    if docs == [] then Some([])
    else
      var head := EnrichDocument(svc, docs[0]);
      var tail := EnhancedChunks(svc, docs[1..]);
      assert forall d :: d in docs <==> d == docs[0] || d in docs[1..];
      if head.None? || tail.None? then None
      else
        assert forall c :: c in head.value ==> WellFormedChunk(c) by {
          forall c | c in head.value
            ensures WellFormedChunk(c)
          {
            var i :| 0 <= i < |head.value| && head.value[i] == c;
            assert IsChunk(svc, docs[0], head.value, i);
            assert c.metadata.source == docs[0].metadata.source by {
              assert WithoutChunkKeys(c.metadata, docs[0].metadata) == docs[0].metadata;
            }
          }
        }
        Some(head.value + tail.value)
  }

  /** The chunks of a non-empty list are those of its first document
      followed by those of the rest. */
  lemma EnhancedChunksCons(svc: Services, docs: seq<Document>)
    requires docs != [] && EnhancedChunks(svc, docs).Some?
    ensures EnrichDocument(svc, docs[0]).Some? && EnhancedChunks(svc, docs[1..]).Some?
    ensures EnhancedChunks(svc, docs).value == EnrichDocument(svc, docs[0]).value + EnhancedChunks(svc, docs[1..]).value
  {
  }

  /** The chunks of the build are the enriched chunks of each document in
      document order: chunk `i` of document `k` sits right after the pieces
      of the documents before it. */
  lemma EnhancedChunksLayout(svc: Services, docs: seq<Document>, k: nat, i: nat)
    requires EnhancedChunks(svc, docs).Some?
    requires k < |docs| && i < |Pieces(svc, docs[k])|
    ensures EnrichDocument(svc, docs[k]).Some?
    ensures PieceCount(svc, docs[..k]) + i < |EnhancedChunks(svc, docs).value|
    ensures EnhancedChunks(svc, docs).value[PieceCount(svc, docs[..k]) + i] == EnrichDocument(svc, docs[k]).value[i]
  {
    ChunksAroundDocument(svc, docs, k);
    Extraction.ConcatMapLayout(ChunksOrEmpty(svc), docs, k, i);
  }

  /** The facts the layout rests on: the loop's result is the concatenation
      of the documents' chunks, the chunks before document `k` number
      `PieceCount(docs[..k])`, and document `k` does not raise. */
  lemma ChunksAroundDocument(svc: Services, docs: seq<Document>, k: nat)
    requires EnhancedChunks(svc, docs).Some?
    requires k < |docs|
    ensures EnrichDocument(svc, docs[k]).Some?
    ensures ChunksOrEmpty(svc)(docs[k]) == EnrichDocument(svc, docs[k]).value
    ensures EnhancedChunks(svc, docs).value == Extraction.ConcatMap(ChunksOrEmpty(svc), docs)
    ensures |Extraction.ConcatMap(ChunksOrEmpty(svc), docs[..k])| == PieceCount(svc, docs[..k])
  {
    assert docs[k] in docs;
    assert forall d :: d in docs[..k] ==> d in docs;
    EnhancedChunksAsConcat(svc, docs);
    EnhancedChunksAsConcat(svc, docs[..k]);
  }

  /** The chunks of a document, or none when it raises. */
  function ChunksOrEmpty(svc: Services): Document -> seq<Document> {
    d => EnrichDocument(svc, d).GetOr([])
  }

  /** When no document raises, the loop's result is the chunks of each
      document in turn. */
  lemma {:induction false} EnhancedChunksAsConcat(svc: Services, docs: seq<Document>)
    requires EnhancedChunks(svc, docs).Some?
    ensures EnhancedChunks(svc, docs).value == Extraction.ConcatMap(ChunksOrEmpty(svc), docs)
    decreases |docs|
  {
    if docs != [] {
      EnhancedChunksCons(svc, docs);
      EnhancedChunksAsConcat(svc, docs[1..]);
    }
  }

  /** What `create_enhanced_vector_store` returns. `BuildRaised` is the
      exception the call lets escape: a source that cannot be hashed, an
      index built from no chunks at all, or a failing embedding or index
      build. */
  datatype BuildOutcome = Built(store: VectorStore) | NoDocuments | BuildRaised

  /** `create_enhanced_vector_store(documents)`, with the processor's state
      before and after. An empty document list returns `None` and changes
      nothing; a failed build changes nothing either; a successful one
      indexes the chunks of `EnhancedChunks`, replaces the index and the
      processed documents and keeps the key. */
  function CreateEnhancedVectorStore(svc: Services, p: Processor, docs: seq<Document>): (r: (Processor, BuildOutcome))
    ensures docs == [] ==> r == (p, NoDocuments)
    ensures r.1.BuildRaised? <==>
      && docs != []
      && (|| (exists d :: d in docs && Unhashable(svc, d))
          || PieceCount(svc, docs) == 0
          || !svc.canIndex(EnhancedChunks(svc, docs).value))
    ensures !r.1.Built? ==> r.0 == p
    ensures r.1.Built? ==>
      && r.0 == p.(vectorStore := Some(r.1.store), processedDocuments := docs)
      && EnhancedChunks(svc, docs).Some?
      && r.1.store.entries == EnhancedChunks(svc, docs).value
      && NTotal(r.1.store) == PieceCount(svc, docs) > 0
      && forall c :: c in r.1.store.entries ==> WellFormedChunk(c)
  {
    if docs == [] then (p, NoDocuments)
    else
      match EnhancedChunks(svc, docs)
      case None => (p, BuildRaised)
      case Some(chunks) =>
        if chunks == [] || !svc.canIndex(chunks) then (p, BuildRaised)
        else
          var store := VectorStore(chunks);
          (p.(vectorStore := Some(store), processedDocuments := docs), Built(store))
  }

  /** Chunk `i` of document `k` is entry `PieceCount(docs[..k]) + i` of the
      index a successful build creates. */
  lemma BuiltStoreLayout(svc: Services, p: Processor, docs: seq<Document>, k: nat, i: nat)
    requires CreateEnhancedVectorStore(svc, p, docs).1.Built?
    requires k < |docs| && i < |Pieces(svc, docs[k])|
    ensures EnrichDocument(svc, docs[k]).Some?
    ensures var entries := CreateEnhancedVectorStore(svc, p, docs).1.store.entries;
      && PieceCount(svc, docs[..k]) + i < |entries|
      && entries[PieceCount(svc, docs[..k]) + i] == EnrichDocument(svc, docs[k]).value[i]
  {
    EnhancedChunksLayout(svc, docs, k, i);
  }

  /** No two chunks of one document share an id, whenever MD5 behaves as a
      hex digest. */
  lemma ChunkIdsDistinctWithinDocument(svc: Services, doc: Document, i: nat, j: nat)
    requires forall s :: IsHexDigest(svc.md5(s))
    requires EnrichDocument(svc, doc).Some?
    requires i < j < |EnrichDocument(svc, doc).value|
    ensures EnrichDocument(svc, doc).value[i].metadata.chunkId != EnrichDocument(svc, doc).value[j].metadata.chunkId
  {
    var pieces := Pieces(svc, doc);
    var source := SourceText(doc.metadata).value;
    assert IsChunk(svc, doc, EnrichDocument(svc, doc).value, i);
    assert IsChunk(svc, doc, EnrichDocument(svc, doc).value, j);
    ChunkIdsDistinctByIndex(svc.md5, pieces[i], pieces[j], source, i, j);
  }
}

=== FILE: legacy.dfy ===
/** The first-generation `DocumentProcessor`: the same extension table, OCR
    rule and batch loop as the enhanced processor, but sparse metadata
    (source, type and the loader's page), "image_ocr" as the image tag, a
    1000/200 splitter, no chunk ids, and "metadata.json" beside the index. */
module Legacy {
  import opened Wrappers
  import opened Text
  import opened Values
  import opened Services
  import opened Config
  import opened Extraction
  import opened Indexing
  import opened Persistence
  import opened Retrieval

  /** `RecursiveCharacterTextSplitter(chunk_size=1000, chunk_overlap=200)`
      with the library's default separators. */
  function LegacySplitter(): (s: Splitter)
    ensures s.overlap < s.size
    ensures |s.separators| == 4 && s.separators[3] == ""
  {
    Splitter(1000, 200, ["\n\n", "\n", " ", ""])
  }

  /** The metadata of a legacy record: just these three keys. */
  function LegacyMetadata(path: string, docType: string, page: Option<Value>): (md: Metadata)
    ensures md.(source := None, docType := None, page := None) == EmptyMetadata
    ensures md.source == Some(VStr(path)) && md.docType == Some(VStr(docType)) && md.page == page
  {
    EmptyMetadata.(source := Some(VStr(path)), docType := Some(VStr(docType)), page := page)
  }

  /** `_process_pdf`: one "pdf" record per non-blank page, in page order, whose
      page is the loader's own page number (0 when the loader gives none). */
  function LegacyProcessPdf(svc: Services, path: string): (docs: seq<Document>)
    ensures svc.loadPdf(path).None? ==> docs == []
    ensures svc.loadPdf(path).Some? ==>
      var pages := svc.loadPdf(path).value;
      var idx := NonBlankPages(pages);
      && |docs| == |idx|
      && forall j :: 0 <= j < |docs| ==>
           && docs[j].content == pages[idx[j]].content
           && docs[j].metadata == LegacyMetadata(path, "pdf", Some(pages[idx[j]].metadata.page.GetOr(VInt(0))))
  {
    match svc.loadPdf(path)
    case None => []
    case Some(pages) =>
      var idx := NonBlankPages(pages);
      seq(|idx|, j requires 0 <= j < |idx| =>
        Document(pages[idx[j]].content, LegacyMetadata(path, "pdf", Some(pages[idx[j]].metadata.page.GetOr(VInt(0))))))
  }

  /** `_process_text`: one "text" record holding the whole file exactly when
      it can be read and is not blank. */
  function LegacyProcessText(svc: Services, path: string): (docs: seq<Document>)
    ensures |docs| <= 1
    ensures |docs| == 1 <==> svc.readText(path).Some? && !Blank(svc.readText(path).value)
    ensures |docs| == 1 ==> docs[0] == Document(svc.readText(path).value, LegacyMetadata(path, "text", None))
  {
    match svc.readText(path)
    case None => []
    case Some(content) =>
      if Strip(content) != [] then [Document(content, LegacyMetadata(path, "text", None))] else []
  }

  /** The instruction the legacy processor sends with every image. */
  const LegacyOcrPrompt: string :=
    "Extract all the text from this image. "
    + "Return only the extracted text, no explanations. "
    + "If there's no text, return 'No text found'."

  /** `_process_image`: one "image_ocr" record holding the OCR text, unless
      that text is empty. The OCR rule is the enhanced one, asked with the
      legacy prompt. */
  function LegacyProcessImage(svc: Services, p: Processor, path: string): (docs: seq<Document>)
    ensures |docs| <= 1
    ensures |docs| == 1 <==> ExtractTextFromImage(svc, p, LegacyOcrPrompt, path) != []
    ensures |docs| == 1 ==> docs[0] == Document(ExtractTextFromImage(svc, p, LegacyOcrPrompt, path), LegacyMetadata(path, "image_ocr", None))
  {
    var text := ExtractTextFromImage(svc, p, LegacyOcrPrompt, path);
    if text != [] then [Document(text, LegacyMetadata(path, "image_ocr", None))] else []
  }

  /** The "type" tag each legacy extractor writes. */
  function LegacyTypeTag(kind: FileKind): string {
    match kind
    case PdfKind => "pdf"
    case TextKind => "text"
    case ImageKind => "image_ocr"
  }

  /** Runs the legacy extractor of one table entry; every record it yields
      carries the file as source and the extractor's type tag. */
  function LegacyDispatch(svc: Services, p: Processor, kind: FileKind, path: string): (docs: seq<Document>)
    ensures forall j :: 0 <= j < |docs| ==>
      && docs[j].metadata.source == Some(VStr(path))
      && docs[j].metadata.docType == Some(VStr(LegacyTypeTag(kind)))
  {
    match kind
    case PdfKind => LegacyProcessPdf(svc, path)
    case TextKind => LegacyProcessText(svc, path)
    case ImageKind => LegacyProcessImage(svc, p, path)
  }

  /** One iteration of the legacy `process_files`: the same gate as the
      enhanced one, then the legacy extractor. */
  function LegacyProcessFile(svc: Services, p: Processor, path: string): (docs: seq<Document>)
    ensures !svc.fileExists(path) || KindOf(ExtensionOf(path)).None? ==> docs == []
    ensures svc.fileExists(path) && KindOf(ExtensionOf(path)).Some? ==>
      docs == LegacyDispatch(svc, p, KindOf(ExtensionOf(path)).value, path)
    ensures forall d :: d in docs ==> d.metadata.source == Some(VStr(path))
  {
    if !svc.fileExists(path) then []
    else
      var kind := KindOf(ExtensionOf(path));
      if kind.None? then [] else LegacyDispatch(svc, p, kind.value, path)
  }

  /** `process_files` of the legacy processor: the per-file outputs in input
      order, so every record names one of the batch's paths as its source. */
  function LegacyProcessFiles(svc: Services, p: Processor, paths: seq<string>): (docs: seq<Document>)
    ensures paths == [] ==> docs == []
    ensures paths != [] ==> docs == LegacyProcessFile(svc, p, paths[0]) + LegacyProcessFiles(svc, p, paths[1..])
    decreases |paths|
    ensures forall d :: d in docs ==> SourceAmong(d, paths)
  {
    var f := (path: string) => LegacyProcessFile(svc, p, path);
    var docs := ConcatMap(f, paths);
    assert forall d :: d in docs ==> SourceAmong(d, paths) by {
      forall d | d in docs
        ensures SourceAmong(d, paths)
      {
        ConcatMapMember(f, paths, d);
        var x :| x in paths && d in f(x);
        assert f(x) == LegacyProcessFile(svc, p, x);
      }
    }
    docs
  }

  /** Processing two batches one after the other gives the same records as
      processing them together. */
  lemma LegacyProcessFilesAppend(svc: Services, p: Processor, a: seq<string>, b: seq<string>)
    ensures LegacyProcessFiles(svc, p, a + b) == LegacyProcessFiles(svc, p, a) + LegacyProcessFiles(svc, p, b)
  {
    ConcatMapAppend((path: string) => LegacyProcessFile(svc, p, path), a, b);
  }

  /** Both processors accept and skip exactly the same files: when the file
      is present with a suffix in the table, each runs its own extractor for
      that table entry; otherwise each yields nothing. */
  lemma LegacySkipsLikeEnhanced(svc: Services, p: Processor, path: string, now: string)
    ensures svc.fileExists(path) && KindOf(ExtensionOf(path)).Some? ==>
      var kind := KindOf(ExtensionOf(path)).value;
      && LegacyProcessFile(svc, p, path) == LegacyDispatch(svc, p, kind, path)
      && ProcessFile(svc, p, path, now) == Dispatch(svc, p, kind, path, now)
    ensures !svc.fileExists(path) || KindOf(ExtensionOf(path)).None? ==>
      LegacyProcessFile(svc, p, path) == [] && ProcessFile(svc, p, path, now) == []
  {
  }

  /** The chunks of one document under the legacy splitter: each piece with
      a copy of its parent's metadata. */
  function LegacyPieces(svc: Services, d: Document): (cs: seq<Document>)
    ensures |cs| == |svc.split(d.content, LegacySplitter())|
    ensures forall i :: 0 <= i < |cs| ==>
      cs[i].content == svc.split(d.content, LegacySplitter())[i] && cs[i].metadata == d.metadata
  {
    var pieces := svc.split(d.content, LegacySplitter());
    seq(|pieces|, i requires 0 <= i < |pieces| => Document(pieces[i], d.metadata))
  }

  /** `text_splitter.split_documents(documents)`. */
  function LegacyChunks(svc: Services, docs: seq<Document>): seq<Document> {
    ConcatMap((d: Document) => LegacyPieces(svc, d), docs)
  }

  /** Every legacy chunk carries the metadata of one of the documents. */
  lemma LegacyChunkInherits(svc: Services, docs: seq<Document>, c: Document)
    requires c in LegacyChunks(svc, docs)
    ensures exists d :: d in docs && c.metadata == d.metadata
  {
    var f := (d: Document) => LegacyPieces(svc, d);
    ConcatMapMember(f, docs, c);
    var d :| d in docs && c in f(d);
    assert f(d) == LegacyPieces(svc, d);
  }

  /** `create_vector_store(documents)`: the same outcomes as the enhanced
      build, without chunk ids, so only an empty chunk list or a failing
      index build makes it raise. */
  function LegacyCreateVectorStore(svc: Services, p: Processor, docs: seq<Document>): (r: (Processor, BuildOutcome))
    ensures docs == [] ==> r == (p, NoDocuments)
    ensures r.1.BuildRaised? <==>
      docs != [] && (LegacyChunks(svc, docs) == [] || !svc.canIndex(LegacyChunks(svc, docs)))
    ensures !r.1.Built? ==> r.0 == p
    ensures r.1.Built? ==>
      && r.0 == p.(vectorStore := Some(r.1.store), processedDocuments := docs)
      && r.1.store.entries == LegacyChunks(svc, docs) != []
  {
    if docs == [] then (p, NoDocuments)
    else
      var chunks := LegacyChunks(svc, docs);
      if chunks == [] || !svc.canIndex(chunks) then (p, BuildRaised)
      else
        var store := VectorStore(chunks);
        (p.(vectorStore := Some(store), processedDocuments := docs), Built(store))
  }

  /** `f"{path}/metadata.json"`. */
  function LegacySidecarPath(path: string): string {
    path + "/metadata.json"
  }

  /** The legacy metadata file: counts, the model name and the sources. */
  function LegacySidecar(docs: seq<Document>, store: VectorStore): (j: Json)
    ensures j.JObj? && j.fields.Keys == {"num_documents", "num_chunks", "embedding_model", "processed_files"}
    ensures j.fields["num_documents"] == JNum(|docs|) && j.fields["num_chunks"] == JNum(NTotal(store))
    ensures j.fields["processed_files"].JArr? && |j.fields["processed_files"].items| == |docs|
    ensures forall i :: 0 <= i < |docs| ==>
      j.fields["processed_files"].items[i] == ToJson(docs[i].metadata.source.GetOr(VStr("")))
  {
    JObj(map[
      "num_documents" := JNum(|docs|),
      "num_chunks" := JNum(NTotal(store)),
      "embedding_model" := JStr(EmbeddingsModel),
      "processed_files" := JArr(seq(|docs|, i requires 0 <= i < |docs| => ToJson(docs[i].metadata.source.GetOr(VStr("")))))])
  }

  /** `save_vector_store(path)` of the legacy processor. */
  function LegacySaveVectorStore(p: Processor, path: string, disk: Disk): (d: Disk)
    ensures p.vectorStore.None? ==> d == disk
    ensures p.vectorStore.Some? ==>
      && d.indexes == disk.indexes[path := p.vectorStore.value]
      && d.files == disk.files[LegacySidecarPath(path) := Some(LegacySidecar(p.processedDocuments, p.vectorStore.value))]
  {
    match p.vectorStore
    case None => disk
    case Some(store) =>
      Disk(disk.indexes[path := store],
           disk.files[LegacySidecarPath(path) := Some(LegacySidecar(p.processedDocuments, store))])
  }

  /** `load_vector_store(path)` of the legacy processor: `None` and no change
      without an index under `path`; otherwise the index becomes the
      processor's, and the call returns it unless "metadata.json" exists
      there without being a JSON object. */
  function LegacyLoadVectorStore(p: Processor, path: string, disk: Disk): (r: (Processor, Option<VectorStore>))
    ensures path !in disk.indexes ==> r == (p, None)
    ensures path in disk.indexes ==>
      && r.0 == p.(vectorStore := Some(disk.indexes[path]))
      && (r.1.Some? ==> r.1.value == disk.indexes[path])
      && (r.1.None? <==> var f := LegacySidecarPath(path);
            f in disk.files && (disk.files[f].None? || !disk.files[f].value.JObj?))
  {
    LoadIndex(p, path, LegacySidecarPath(path), disk)
  }

  /** Saving and then loading from the same directory gives back the saved
      index. */
  lemma LegacySaveThenLoad(p: Processor, q: Processor, path: string, disk: Disk)
    requires p.vectorStore.Some?
    ensures var r := LegacyLoadVectorStore(q, path, LegacySaveVectorStore(p, path, disk));
      r.1 == p.vectorStore && r.0.vectorStore == p.vectorStore && r.0.processedDocuments == q.processedDocuments
  {
    var d := LegacySaveVectorStore(p, path, disk);
    assert d.files[LegacySidecarPath(path)].value.JObj?;
  }

  /** `search_similar_documents(query, k)`: the hits' documents in hit
      order; nothing without an index or when the search raises. */
  function LegacySearch(svc: Services, p: Processor, query: string, k: int): (docs: seq<Document>)
    ensures p.vectorStore.None? || svc.similaritySearch(p.vectorStore.value, query, k).None? ==> docs == []
    ensures p.vectorStore.Some? && svc.similaritySearch(p.vectorStore.value, query, k).Some? ==>
      var hits := svc.similaritySearch(p.vectorStore.value, query, k).value;
      |docs| == |hits| && forall i :: 0 <= i < |hits| ==> docs[i] == hits[i].doc
  {
    match p.vectorStore
    case None => []
    case Some(store) =>
      match svc.similaritySearch(store, query, k)
      case None => []
      case Some(hits) => seq(|hits|, i requires 0 <= i < |hits| => hits[i].doc)
  }

  /** In a legacy index, every chunk of an image is cited as "<name> (OCR)". */
  lemma LegacyImageChunkCitation(svc: Services, p: Processor, path: string, docs: seq<Document>, c: Document)
    requires docs == LegacyProcessImage(svc, p, path) && c in LegacyChunks(svc, docs)
    ensures CitationLabel(c.metadata) == Some(Basename(path) + " (OCR)")
  {
    LegacyChunkInherits(svc, docs, c);
  }

  /** In a legacy index, every chunk of a text file is cited as
      "<name>, Chunk 1", because legacy chunks carry no chunk index. */
  lemma LegacyTextChunkCitation(svc: Services, path: string, docs: seq<Document>, c: Document)
    requires docs == LegacyProcessText(svc, path) && c in LegacyChunks(svc, docs)
    ensures CitationLabel(c.metadata) == Some(Basename(path) + ", Chunk 1")
  {
    LegacyChunkInherits(svc, docs, c);
    assert c.metadata == LegacyMetadata(path, "text", None);
    FirstChunkCitation(c.metadata, path);
  }

  /** A legacy record of a PDF's first page (the loader numbers pages from 0)
      has a falsy page, so its chunks are cited by the bare file name. */
  lemma LegacyFirstPageCitation(svc: Services, path: string, j: nat, c: Document)
    requires svc.loadPdf(path).Some?
    requires j < |LegacyProcessPdf(svc, path)|
    requires svc.loadPdf(path).value[NonBlankPages(svc.loadPdf(path).value)[j]].metadata.page == Some(VInt(0))
    requires c in LegacyChunks(svc, [LegacyProcessPdf(svc, path)[j]])
    ensures CitationLabel(c.metadata) == Some(Basename(path))
  {
    var d := LegacyProcessPdf(svc, path)[j];
    assert d.metadata == LegacyMetadata(path, "pdf", Some(VInt(0)));
    LegacyChunkInherits(svc, [d], c);
    assert c.metadata == d.metadata;
    OtherCitation(c.metadata, path);
  }
}

=== FILE: persistence.dfy ===
/** `save_vector_store` and `load_vector_store` of the enhanced processor,
    over a model of the disk: the saved indexes by directory, and the JSON
    files by path. */
module Persistence {
  import opened Wrappers
  import opened Values
  import opened Services
  import opened Config

  /** A JSON file on disk holds a parsed document, or `None` when its text is
      not valid JSON. */
  datatype Disk = Disk(indexes: map<string, VectorStore>, files: map<string, Option<Json>>)

  /** `f"{path}/{ENHANCED_METADATA_FILENAME}"`. */
  function SidecarPath(path: string): string {
    path + "/" + EnhancedMetadataFilename
  }

  /** One entry of "processed_files", read with the defaults `save_vector_store` uses. */
  function ProcessedFileEntry(d: Document): Json {
    JObj(map[
      "source" := ToJson(d.metadata.source.GetOr(VStr(""))),
      "type" := ToJson(d.metadata.docType.GetOr(VStr(""))),
      "word_count" := ToJson(d.metadata.wordCount.GetOr(VInt(0))),
      "processed_at" := ToJson(d.metadata.processedAt.GetOr(VStr("")))])
  }

  /** The metadata file written beside a saved index. */
  function Sidecar(docs: seq<Document>, store: VectorStore, now: string): (j: Json)
    ensures j.JObj?
    ensures j.fields.Keys == {"num_documents", "num_chunks", "embedding_model", "processed_files",
                              "created_at", "chunk_size", "chunk_overlap"}
    ensures j.fields["num_documents"] == JNum(|docs|)
    ensures j.fields["num_chunks"] == JNum(NTotal(store))
    ensures j.fields["processed_files"].JArr? && |j.fields["processed_files"].items| == |docs|
    ensures forall i :: 0 <= i < |docs| ==> j.fields["processed_files"].items[i] == ProcessedFileEntry(docs[i])
  {
    JObj(map[
      "num_documents" := JNum(|docs|),
      "num_chunks" := JNum(NTotal(store)),
      "embedding_model" := JStr(EmbeddingsModel),
      "processed_files" := JArr(seq(|docs|, i requires 0 <= i < |docs| => ProcessedFileEntry(docs[i]))),
      "created_at" := JStr(now),
      "chunk_size" := JNum(ChunkSize),
      "chunk_overlap" := JNum(ChunkOverlap)])
  }

  /** `save_vector_store(path)`: without an index nothing is written
      (`save_vector_store` only logs); otherwise the index is saved under `path` and the
      sidecar file beside it, and no other index or file changes. */
  function SaveVectorStore(p: Processor, path: string, disk: Disk, now: string): (d: Disk)
    ensures p.vectorStore.None? ==> d == disk
    ensures p.vectorStore.Some? ==>
      && path in d.indexes && d.indexes[path] == p.vectorStore.value
      && SidecarPath(path) in d.files && d.files[SidecarPath(path)].Some?
      && d.files[SidecarPath(path)].value == Sidecar(p.processedDocuments, p.vectorStore.value, now)
      && (forall q :: q in disk.indexes && q != path ==> q in d.indexes && d.indexes[q] == disk.indexes[q])
      && (forall f :: f in disk.files && f != SidecarPath(path) ==> f in d.files && d.files[f] == disk.files[f])
      && d.indexes.Keys == disk.indexes.Keys + {path}
      && d.files.Keys == disk.files.Keys + {SidecarPath(path)}
  {
    match p.vectorStore
    case None => disk
    case Some(store) =>
      Disk(disk.indexes[path := store],
           disk.files[SidecarPath(path) := Some(Sidecar(p.processedDocuments, store, now))])
  }

  /** `load_vector_store(path)` of either processor, with the processor
      after the call; `sidecar` is the metadata file it looks for. Without an
      index under `path` the call returns `None` and changes nothing. With
      one, the index always becomes the processor's, but the call still
      returns `None` when the sidecar exists and is not a JSON object (its
      `get` then raises). The processed documents are never restored. */
  function LoadIndex(p: Processor, path: string, sidecar: string, disk: Disk): (r: (Processor, Option<VectorStore>))
    ensures path !in disk.indexes ==> r == (p, None)
    ensures path in disk.indexes ==>
      && r.0 == p.(vectorStore := Some(disk.indexes[path]))
      && (r.1.Some? ==> r.1.value == disk.indexes[path])
      && (r.1.None? <==> sidecar in disk.files && (disk.files[sidecar].None? || !disk.files[sidecar].value.JObj?))
  {
    if path !in disk.indexes then (p, None)
    else
      var store := disk.indexes[path];
      var loaded := p.(vectorStore := Some(store));
      if sidecar in disk.files && (disk.files[sidecar].None? || !disk.files[sidecar].value.JObj?) then
        (loaded, None)
      else
        (loaded, Some(store))
  }

  /** `load_vector_store(path)` of the enhanced processor: `None` and no
      change without an index under `path`; otherwise the index becomes the
      processor's, and the call returns it unless the sidecar exists there
      without being a JSON object. */
  function LoadVectorStore(p: Processor, path: string, disk: Disk): (r: (Processor, Option<VectorStore>))
    ensures path !in disk.indexes ==> r == (p, None)
    ensures path in disk.indexes ==>
      && r.0 == p.(vectorStore := Some(disk.indexes[path]))
      && (r.1.Some? ==> r.1.value == disk.indexes[path])
      && (r.1.None? <==> var f := SidecarPath(path);
            f in disk.files && (disk.files[f].None? || !disk.files[f].value.JObj?))
  {
    LoadIndex(p, path, SidecarPath(path), disk)
  }

  /** Saving and then loading from the same directory gives back the saved
      index, into any processor, which keeps its own processed documents. */
  lemma SaveThenLoad(p: Processor, q: Processor, path: string, disk: Disk, now: string)
    requires p.vectorStore.Some?
    ensures var r := LoadVectorStore(q, path, SaveVectorStore(p, path, disk, now));
      && r.1 == p.vectorStore
      && r.0.vectorStore == p.vectorStore
      && r.0.processedDocuments == q.processedDocuments
      && r.0.apiKey == q.apiKey
  {
    var d := SaveVectorStore(p, path, disk, now);
    assert d.files[SidecarPath(path)].value.JObj?;
  }

  /** Different directories have different sidecar paths. */
  lemma SidecarPathInjective(a: string, b: string)
    requires SidecarPath(a) == SidecarPath(b)
    ensures a == b
  {
    assert |a| == |b|;
    assert a == SidecarPath(a)[..|a|];
    assert b == SidecarPath(b)[..|b|];
  }

  /** Saving under one path string leaves what a load from any other path
      string sees unchanged. Paths are compared as strings: two spellings of
      one directory are two keys of the disk. */
  lemma SaveKeepsOtherDirectories(p: Processor, q: Processor, path: string, other: string, disk: Disk, now: string)
    requires other != path
    ensures LoadVectorStore(q, other, SaveVectorStore(p, path, disk, now)) == LoadVectorStore(q, other, disk)
  {
    if SidecarPath(other) == SidecarPath(path) {
      SidecarPathInjective(other, path);
    }
  }
}

=== FILE: retrieval.dfy ===
/** `search_with_citations`: the hits of a similarity search, each projected
    onto a flat record with a human-readable citation. */
module Retrieval {
  import opened Wrappers
  import opened Text
  import opened Values
  import opened Services
  import opened Extraction
  import opened Indexing

  /** One entry of the result list. Each field is `metadata.get(key, default)`
      of the hit's document, under the key named in the comment. */
  datatype CitationResult = CitationResult(
    content: string,
    score: real,
    source: Value,       // "source", default "Unknown"
    docType: Value,      // "type", default "Unknown"
    chunkId: Value,      // "chunk_id", default "Unknown"
    chunkIndex: Value,   // "chunk_index", default 0
    page: Value,         // "page", default None
    wordCount: Value,    // "chunk_word_count", default 0
    sentences: Value,    // "chunk_sentences", default 0
    processedAt: Value,  // "processed_at", default "Unknown"
    citation: string)

  /** The type test of the first branch: a PDF record whose page is truthy. */
  predicate IsPdfWithPage(md: Metadata) {
    md.docType == Some(VStr("pdf")) && md.page.Some? && Truthy(md.page.value)
  }

  /** The citation of a document: its file name, followed by the page for a
      PDF page with a truthy page number, by the 1-based chunk number for
      text, by " (OCR)" for a legacy OCR record, and by nothing for any other
      type, a missing type, or a PDF record whose page is missing or falsy.
      `None` is an exception: a source that is missing or not a string, or a
      text record whose chunk index is not an integer. */
  function CitationLabel(md: Metadata): (cite: Option<string>)
    ensures SourceText(md).None? ==> cite.None?
    ensures SourceText(md).Some? ==>
      var name := Basename(SourceText(md).value);
      var index := md.chunkIndex.GetOr(VInt(0));
      && (IsPdfWithPage(md) ==> cite == Some(name + ", Page " + Format(md.page.value)))
      && (md.docType == Some(VStr("text")) && index.VInt? ==>
            cite == Some(name + ", Chunk " + IntToString(index.i + 1)))
      && (md.docType == Some(VStr("text")) && !index.VInt? ==> cite.None?)
      && (md.docType == Some(VStr("image_ocr")) ==> cite == Some(name + " (OCR)"))
      && (!IsPdfWithPage(md) && md.docType != Some(VStr("text")) && md.docType != Some(VStr("image_ocr")) ==>
            cite == Some(name))
  {
    match SourceText(md)
    case None => None
    case Some(source) =>
      var name := Basename(source);
      if IsPdfWithPage(md) then
        Some(name + ", Page " + Format(md.page.value))
      else if md.docType == Some(VStr("text")) then
        match md.chunkIndex.GetOr(VInt(0))
        case VInt(i) => Some(name + ", Chunk " + IntToString(i + 1))
        case _ => None
      else if md.docType == Some(VStr("image_ocr")) then
        Some(name + " (OCR)")
      else
        Some(name)
  }

  /** The record of one hit, or `None` when building its citation raises.
      Every field is the hit's metadata value under its key, or the default
      `search_with_citations` uses for that key when it is absent. */
  function Cite(hit: Hit): (r: Option<CitationResult>)
    ensures r.None? <==> CitationLabel(hit.doc.metadata).None?
    ensures r.Some? ==>
      var md := hit.doc.metadata;
      && r.value.content == hit.doc.content
      && r.value.score == hit.score
      && r.value.source == md.source.GetOr(VStr("Unknown"))
      && r.value.docType == md.docType.GetOr(VStr("Unknown"))
      && r.value.chunkId == md.chunkId.GetOr(VStr("Unknown"))
      && r.value.chunkIndex == md.chunkIndex.GetOr(VInt(0))
      && r.value.page == md.page.GetOr(VNull)
      && r.value.wordCount == md.chunkWordCount.GetOr(VInt(0))
      && r.value.sentences == md.chunkSentences.GetOr(VInt(0))
      && r.value.processedAt == md.processedAt.GetOr(VStr("Unknown"))
      && Some(r.value.citation) == CitationLabel(md)
  {
    var md := hit.doc.metadata;
    var citation :- CitationLabel(md);
    Some(CitationResult(
      hit.doc.content, hit.score,
      md.source.GetOr(VStr("Unknown")),
      md.docType.GetOr(VStr("Unknown")),
      md.chunkId.GetOr(VStr("Unknown")),
      md.chunkIndex.GetOr(VInt(0)),
      md.page.GetOr(VNull),
      md.chunkWordCount.GetOr(VInt(0)),
      md.chunkSentences.GetOr(VInt(0)),
      md.processedAt.GetOr(VStr("Unknown")),
      citation))
  }

  /** The loop over the hits inside one `try`: all records in hit order, or
      `None` when any one of them raises. */
  function CiteAll(hits: seq<Hit>): Option<seq<CitationResult>>
    decreases |hits|
  {
    if hits == [] then Some([])
    else
      match Cite(hits[0])
      case None => None
      case Some(first) =>
        match CiteAll(hits[1..])
        case None => None
        case Some(rest) => Some([first] + rest)
  }

  /** The loop yields nothing exactly when some hit's citation raises. */
  lemma CiteAllFails(hits: seq<Hit>)
    ensures CiteAll(hits).None? <==> exists i :: 0 <= i < |hits| && Cite(hits[i]).None?
  {
    if CiteAll(hits).None? {
      CiteAllFailureWitness(hits);
    } else {
      CiteAllValues(hits);
    }
  }

  /** When the loop yields nothing, some hit's citation raised. */
  lemma {:induction false} CiteAllFailureWitness(hits: seq<Hit>)
    requires CiteAll(hits).None?
    ensures exists i :: 0 <= i < |hits| && Cite(hits[i]).None?
    decreases |hits|
  {
    if Cite(hits[0]).Some? {
      CiteAllFailureWitness(hits[1..]);
      var i :| 0 <= i < |hits[1..]| && Cite(hits[1..][i]).None?;
      assert hits[1..][i] == hits[i + 1];
    }
  }

  /** Otherwise the loop yields one record per hit, in hit order. */
  lemma {:induction false} CiteAllValues(hits: seq<Hit>)
    requires CiteAll(hits).Some?
    ensures |CiteAll(hits).value| == |hits|
    ensures forall i :: 0 <= i < |hits| ==> Cite(hits[i]) == Some(CiteAll(hits).value[i])
    decreases |hits|
  {
    if hits != [] {
      var rest := CiteAll(hits[1..]).value;
      CiteAllValues(hits[1..]);
      var r := CiteAll(hits).value;
      assert r == [Cite(hits[0]).value] + rest;
      forall i | 0 <= i < |hits|
        ensures Cite(hits[i]) == Some(r[i])
      {
        if i > 0 {
          assert hits[i] == hits[1..][i - 1] && r[i] == rest[i - 1];
        }
      }
    }
  }

  /** Both halves of the loop's behaviour. */
  lemma CiteAllCorrect(hits: seq<Hit>)
    ensures CiteAll(hits).None? <==> exists i :: 0 <= i < |hits| && Cite(hits[i]).None?
    ensures CiteAll(hits).Some? ==>
      |CiteAll(hits).value| == |hits| && forall i :: 0 <= i < |hits| ==> Cite(hits[i]) == Some(CiteAll(hits).value[i])
  {
    CiteAllFails(hits);
    if CiteAll(hits).Some? {
      CiteAllValues(hits);
    }
  }

  /** `search_with_citations(query, k)`: nothing without an index or when the
      search raises; nothing either when a single hit's citation raises;
      otherwise one record per hit, in hit order: the hit's `Cite` record,
      which holds its content, score, citation and metadata fields. */
  function SearchWithCitations(svc: Services, p: Processor, query: string, k: int): (r: seq<CitationResult>)
    ensures p.vectorStore.None? || svc.similaritySearch(p.vectorStore.value, query, k).None? ==> r == []
    ensures p.vectorStore.Some? && svc.similaritySearch(p.vectorStore.value, query, k).Some? ==>
      var hits := svc.similaritySearch(p.vectorStore.value, query, k).value;
      && (r == [] <==> hits == [] || exists i :: 0 <= i < |hits| && CitationLabel(hits[i].doc.metadata).None?)
      && (r != [] ==> |r| == |hits| && forall i :: 0 <= i < |hits| ==>
            && Cite(hits[i]) == Some(r[i])
            && r[i].content == hits[i].doc.content
            && r[i].score == hits[i].score
            && Some(r[i].citation) == CitationLabel(hits[i].doc.metadata)
            && r[i].source == hits[i].doc.metadata.source.value)
  {
    match p.vectorStore
    case None => []
    case Some(store) =>
      match svc.similaritySearch(store, query, k)
      case None => []
      case Some(hits) =>
        CiteAllCorrect(hits);
        match CiteAll(hits)
        case None => []
        case Some(results) => results
  }

  /** A chunk keeps the source, type and page of the document it was cut from. */
  lemma ChunkKeepsParentKeys(svc: Services, d: Document, i: nat)
    requires EnrichDocument(svc, d).Some? && i < |EnrichDocument(svc, d).value|
    ensures var c := EnrichDocument(svc, d).value[i];
      && c.metadata.source == d.metadata.source
      && c.metadata.docType == d.metadata.docType
      && c.metadata.page == d.metadata.page
  {
    var c := EnrichDocument(svc, d).value[i];
    assert IsChunk(svc, d, EnrichDocument(svc, d).value, i);
    assert WithoutChunkKeys(c.metadata, d.metadata) == d.metadata;
  }

  /** A chunk of an image record of the enhanced processor is cited by the
      bare file name: the processor tags images "image", while the citation
      rule looks for "image_ocr". */
  lemma ImageChunkCitedByName(svc: Services, p: Processor, path: string, now: string, i: nat)
    requires |ProcessImage(svc, p, path, now)| == 1
    requires EnrichDocument(svc, ProcessImage(svc, p, path, now)[0]).Some?
    requires i < |EnrichDocument(svc, ProcessImage(svc, p, path, now)[0]).value|
    ensures CitationLabel(EnrichDocument(svc, ProcessImage(svc, p, path, now)[0]).value[i].metadata)
         == Some(Basename(path))
  {
    var d := ProcessImage(svc, p, path, now)[0];
    var c := EnrichDocument(svc, d).value[i];
    assert d.metadata.source == Some(VStr(path)) && d.metadata.docType == Some(VStr("image"));
    ChunkKeepsParentKeys(svc, d, i);
    OtherCitation(c.metadata, path);
  }

  /** A record whose type is neither a PDF with a truthy page, a text file
      nor "image_ocr" is cited by its bare name. */
  lemma OtherCitation(md: Metadata, source: string)
    requires SourceText(md) == Some(source)
    requires !IsPdfWithPage(md) && md.docType != Some(VStr("text")) && md.docType != Some(VStr("image_ocr"))
    ensures CitationLabel(md) == Some(Basename(source))
  {
  }

  /** A text record with chunk index `i` (0 when it has none) is cited by
      chunk `i + 1`. */
  lemma TextCitation(md: Metadata, source: string, i: nat)
    requires SourceText(md) == Some(source)
    requires md.docType == Some(VStr("text")) && md.chunkIndex.GetOr(VInt(0)) == VInt(i)
    ensures CitationLabel(md) == Some(Basename(source) + ", Chunk " + NatToString(i + 1))
  {
  }

  /** A text record without a chunk index, or with index 0, is cited as
      its first chunk. */
  lemma FirstChunkCitation(md: Metadata, source: string)
    requires SourceText(md) == Some(source)
    requires md.docType == Some(VStr("text")) && md.chunkIndex.GetOr(VInt(0)) == VInt(0)
    ensures CitationLabel(md) == Some(Basename(source) + ", Chunk 1")
  {
    TextCitation(md, source, 0);
    FirstChunkLabel(Basename(source));
  }

  /** The label of a first chunk spells the number as "1". */
  lemma FirstChunkLabel(name: string)
    ensures name + ", Chunk " + NatToString(0 + 1) == name + ", Chunk 1"
  {
    assert NatToString(0 + 1) == [DigitChar(1)] == "1";
  }

  /** Chunk `i` of a text file is cited as "<name>, Chunk <i + 1>". */
  lemma TextChunkCitation(svc: Services, path: string, now: string, i: nat)
    requires |ProcessText(svc, path, now)| == 1
    requires EnrichDocument(svc, ProcessText(svc, path, now)[0]).Some?
    requires i < |EnrichDocument(svc, ProcessText(svc, path, now)[0]).value|
    ensures CitationLabel(EnrichDocument(svc, ProcessText(svc, path, now)[0]).value[i].metadata)
         == Some(Basename(path) + ", Chunk " + NatToString(i + 1))
  {
    var d := ProcessText(svc, path, now)[0];
    var c := EnrichDocument(svc, d).value[i];
    assert d.metadata.source == Some(VStr(path)) && d.metadata.docType == Some(VStr("text"));
    assert IsChunk(svc, d, EnrichDocument(svc, d).value, i);
    ChunkKeepsParentKeys(svc, d, i);
    TextCitation(c.metadata, path, i);
  }

  /** A PDF record with page `n` (at least 1) is cited by that page. */
  lemma PdfPageCitation(md: Metadata, source: string, n: nat)
    requires SourceText(md) == Some(source)
    requires md.docType == Some(VStr("pdf")) && md.page == Some(VInt(n)) && n >= 1
    ensures CitationLabel(md) == Some(Basename(source) + ", Page " + NatToString(n))
  {
  }

  /** Every chunk of the `j`-th record of a PDF is cited by the page that
      record came from, numbered from 1. */
  lemma PdfChunkCitation(svc: Services, path: string, now: string, j: nat, i: nat)
    requires svc.loadPdf(path).Some?
    requires j < |ProcessPdf(svc, path, now)|
    requires EnrichDocument(svc, ProcessPdf(svc, path, now)[j]).Some?
    requires i < |EnrichDocument(svc, ProcessPdf(svc, path, now)[j]).value|
    ensures CitationLabel(EnrichDocument(svc, ProcessPdf(svc, path, now)[j]).value[i].metadata)
         == Some(Basename(path) + ", Page " + NatToString(NonBlankPages(svc.loadPdf(path).value)[j] + 1))
  {
    var pages := svc.loadPdf(path).value;
    var d := ProcessPdf(svc, path, now)[j];
    assert IsPageRecord(path, pages, NonBlankPages(pages), now, ProcessPdf(svc, path, now), j);
    PageChunkCitation(svc, d, path, NonBlankPages(svc.loadPdf(path).value)[j] + 1, i);
  }

  /** Every chunk of a "pdf" record with page `n` (at least 1) is cited by
      that page. */
  lemma PageChunkCitation(svc: Services, d: Document, path: string, n: nat, i: nat)
    requires d.metadata.page == Some(VInt(n)) && n >= 1
    requires d.metadata.docType == Some(VStr("pdf")) && d.metadata.source == Some(VStr(path))
    requires EnrichDocument(svc, d).Some? && i < |EnrichDocument(svc, d).value|
    ensures CitationLabel(EnrichDocument(svc, d).value[i].metadata) == Some(Basename(path) + ", Page " + NatToString(n))
  {
    ChunkKeepsParentKeys(svc, d, i);
    PdfPageCitation(EnrichDocument(svc, d).value[i].metadata, path, n);
  }
}

=== FILE: sentences.dfy ===
/** The sentence segmenter: `re.finditer(r'[.!?]+\s+', text)` walked from left
    to right, each match closing a sentence span at the match's end, and any
    non-blank rest of the text forming a final span. */
module Sentences {
  import opened Wrappers
  import opened Text

  predicate IsTerminal(c: char) {
    c == '.' || c == '!' || c == '?'
  }

  /** End of the maximal run of characters satisfying `p` that starts at `i`. */
  function RunEnd(t: string, i: nat, p: char -> bool): (j: nat)
    requires i <= |t|
    ensures i <= j <= |t|
    ensures forall k :: i <= k < j ==> p(t[k])
    ensures j == |t| || !p(t[j])
    decreases |t| - i
  {
    if i < |t| && p(t[i]) then RunEnd(t, i + 1, p) else i
  }

  /** The pattern matches starting at `i`. Because `[.!?]+` is greedy and any
      shorter run is followed by another terminal (not whitespace), it matches
      exactly when the maximal terminal run at `i` is followed by whitespace. */
  predicate MatchAt(t: string, i: nat) {
    && i < |t|
    && IsTerminal(t[i])
    && var j := RunEnd(t, i, IsTerminal);
       j < |t| && IsSpace(t[j])
  }

  /** Where the greedy match starting at `i` ends: after the terminal run and
      the whole whitespace run that follows it. */
  function MatchEnd(t: string, i: nat): (e: nat)
    requires MatchAt(t, i)
    ensures i + 2 <= e <= |t|
  {
    RunEnd(t, RunEnd(t, i, IsTerminal) + 1, IsSpace)
  }

  /** The leftmost match starting at or after `from`. */
  function FindMatch(t: string, from: nat): (r: Option<nat>)
    requires from <= |t|
    ensures r.Some? ==> from <= r.value && MatchAt(t, r.value)
    ensures r.Some? ==> forall k :: from <= k < r.value ==> !MatchAt(t, k)
    ensures r.None? ==> forall k :: from <= k < |t| ==> !MatchAt(t, k)
    decreases |t| - from
  {
    if from == |t| then None
    else if MatchAt(t, from) then Some(from)
    else FindMatch(t, from + 1)
  }

  /** One extracted sentence: its stripped text and its span in the input. */
  datatype Sentence = Sentence(text: string, start: nat, end: nat)

  /** Where the span starting at `from` closes: at the end of the leftmost
      match at or after `from`, or at the end of the text when none is left. */
  function SpanEnd(t: string, from: nat): nat
    requires from <= |t|
  {
    match FindMatch(t, from)
    case Some(i) => MatchEnd(t, i)
    case None => |t|
  }

  /** One span lies inside the text, closes where the pattern dictates, and
      carries the stripped, non-empty slice it covers. */
  ghost predicate SpanOk(t: string, s: Sentence) {
    && s.start < s.end <= |t|
    && s.end == SpanEnd(t, s.start)
    && s.text == Strip(t[s.start..s.end])
    && s.text != []
  }

  ghost predicate SpansWellFormed(t: string, r: seq<Sentence>) {
    forall k :: 0 <= k < |r| ==> SpanOk(t, r[k])
  }

  /** The spans tile the text from `cur`: the first starts at `cur` and each
      starts where the previous one ended. */
  ghost predicate SpansContiguousFrom(r: seq<Sentence>, cur: nat) {
    && (r != [] ==> r[0].start == cur)
    && forall k :: 0 <= k < |r| - 1 ==> r[k + 1].start == r[k].end
  }

  /** Where the last span ends, or `cur` when there is none. */
  function LastEnd(r: seq<Sentence>, cur: nat): nat {
    if r == [] then cur else r[|r| - 1].end
  }

  /** A span followed by spans contiguous from its end is contiguous from its start. */
  lemma ConsContiguous(s: Sentence, rest: seq<Sentence>)
    requires SpansContiguousFrom(rest, s.end)
    ensures SpansContiguousFrom([s] + rest, s.start)
  {
    var r := [s] + rest;
    forall k | 0 <= k < |r| - 1
      ensures r[k + 1].start == r[k].end
    {
      if k > 0 {
        assert r[k] == rest[k - 1] && r[k + 1] == rest[k];
      }
    }
  }

  lemma ConsWellFormed(t: string, s: Sentence, rest: seq<Sentence>)
    requires SpanOk(t, s) && SpansWellFormed(t, rest)
    ensures SpansWellFormed(t, [s] + rest)
  {
    var r := [s] + rest;
    forall k | 0 <= k < |r|
      ensures SpanOk(t, r[k])
    {
      if k > 0 {
        assert r[k] == rest[k - 1];
      }
    }
  }

  /** `r` segments the text from `cur` on: the spans are well formed (each
      one closing at the end of the next match, or at the end of the text),
      tile the text from `cur`, only whitespace follows the last one, and
      there are none exactly when the rest of the text is blank. Since the
      first span starts at `cur`, these conditions leave exactly one
      segmentation. */
  ghost predicate Segments(t: string, cur: nat, r: seq<Sentence>)
    requires cur <= |t|
  {
    && SpansWellFormed(t, r)
    && SpansContiguousFrom(r, cur)
    && cur <= LastEnd(r, cur) <= |t|
    && Blank(t[LastEnd(r, cur)..])
    && (r == [] <==> Blank(t[cur..]))
  }

  /** A match at `i` closes a well-formed span from `cur` to the match's end,
      so the text from `cur` on is not blank. */
  lemma MatchSpanOk(t: string, cur: nat, i: nat)
    requires cur <= |t| && FindMatch(t, cur) == Some(i)
    ensures SpanOk(t, Sentence(Strip(t[cur..MatchEnd(t, i)]), cur, MatchEnd(t, i)))
    ensures !Blank(t[cur..])
  {
    var e := MatchEnd(t, i);
    assert t[cur..e][i - cur] == t[i];
    assert t[cur..][i - cur] == t[i];
  }

  /** That span followed by a segmentation of the rest segments the text from
      `cur`. */
  lemma MatchCase(t: string, cur: nat, i: nat, rest: seq<Sentence>)
    requires cur <= |t| && FindMatch(t, cur) == Some(i)
    requires Segments(t, MatchEnd(t, i), rest)
    ensures Strip(t[cur..MatchEnd(t, i)]) != []
    ensures Segments(t, cur, [Sentence(Strip(t[cur..MatchEnd(t, i)]), cur, MatchEnd(t, i))] + rest)
  {
    var e := MatchEnd(t, i);
    var s := Sentence(Strip(t[cur..e]), cur, e);
    MatchSpanOk(t, cur, i);
    ConsWellFormed(t, s, rest);
    ConsContiguous(s, rest);
    assert LastEnd([s] + rest, cur) == LastEnd(rest, e);
  }

  /** Without a further match the non-blank rest of the text is the one last
      span. */
  lemma NoMatchCase(t: string, cur: nat)
    requires cur <= |t| && FindMatch(t, cur).None?
    ensures Segments(t, cur, if cur < |t| && Strip(t[cur..]) != [] then [Sentence(Strip(t[cur..]), cur, |t|)] else [])
  {
    assert t[cur..|t|] == t[cur..];
  }

  /** A span inside `t[from..]` shows that this rest of the text is not blank. */
  lemma SpanNotBlank(t: string, from: nat, s: Sentence)
    requires from <= s.start && SpanOk(t, s)
    ensures !Blank(t[from..])
  {
    var k :| 0 <= k < |t[s.start..s.end]| && !IsSpace(t[s.start..s.end][k]);
    assert t[from..][s.start - from + k] == t[s.start..s.end][k];
  }

  /** Dropping the first span of a segmentation segments the text from that
      span's end. */
  lemma SegmentsTail(t: string, cur: nat, r: seq<Sentence>)
    requires cur <= |t| && Segments(t, cur, r) && r != []
    ensures cur < r[0].end <= |t| && Segments(t, r[0].end, r[1..])
  {
    var e := r[0].end;
    var tail := r[1..];
    assert SpanOk(t, r[0]);
    forall k | 0 <= k < |tail|
      ensures SpanOk(t, tail[k])
    {
      assert tail[k] == r[k + 1];
    }
    assert LastEnd(tail, e) == LastEnd(r, cur);
    if tail != [] {
      assert tail[0].start == e;
      SpanNotBlank(t, e, tail[0]);
    }
  }

  /** Two segmentations from `cur` are both empty or share their first span. */
  lemma SegmentsSameHead(t: string, cur: nat, r1: seq<Sentence>, r2: seq<Sentence>)
    requires cur <= |t| && Segments(t, cur, r1) && Segments(t, cur, r2)
    ensures r1 == [] <==> r2 == []
    ensures r1 != [] ==> r1[0] == r2[0]
  {
    if r1 != [] && r2 != [] {
      assert SpanOk(t, r1[0]) && SpanOk(t, r2[0]);
    }
  }

  /** At most one sequence of spans segments the text from `cur`: the
      conditions of `Segments` determine the segmentation completely. */
  lemma {:induction false} SegmentsUnique(t: string, cur: nat, r1: seq<Sentence>, r2: seq<Sentence>)
    requires cur <= |t| && Segments(t, cur, r1) && Segments(t, cur, r2)
    ensures r1 == r2
    decreases |t| - cur
  {
    SegmentsSameHead(t, cur, r1, r2);
    if r1 != [] {
      SegmentsTail(t, cur, r1);
      SegmentsTail(t, cur, r2);
      SegmentsUnique(t, r1[0].end, r1[1..], r2[1..]);
      SameHeadAndTail(r1, r2);
    }
  }

  /** Non-empty sequences with equal heads and equal tails are equal. */
  lemma SameHeadAndTail<T>(a: seq<T>, b: seq<T>)
    requires a != [] && b != [] && a[0] == b[0] && a[1..] == b[1..]
    ensures a == b
  {
    assert a == [a[0]] + a[1..] && b == [b[0]] + b[1..];
  }

  /** The sentences found from position `cur` on. */
  function SentencesFrom(t: string, cur: nat): (r: seq<Sentence>)
    requires cur <= |t|
    ensures Segments(t, cur, r)
    decreases |t| - cur
  {
    match FindMatch(t, cur)
    case Some(i) =>
      var e := MatchEnd(t, i);
      var s := Strip(t[cur..e]);
      var rest := SentencesFrom(t, e);
      MatchCase(t, cur, i, rest);
      (if s != [] then [Sentence(s, cur, e)] else []) + rest
    case None =>
      NoMatchCase(t, cur);
      if cur < |t| && Strip(t[cur..]) != [] then [Sentence(Strip(t[cur..]), cur, |t|)] else []
  }

  /** `_extract_sentences(text)`: nothing exactly for blank text (in
      particular for the empty string); otherwise spans that start at 0, are
      contiguous, each close at the end of the next `[.!?]+\s+` match (or at
      the end of the text), each carry the stripped non-empty slice they
      cover, and are followed by whitespace only. */
  function ExtractSentences(t: string): (r: seq<Sentence>)
    ensures SpansWellFormed(t, r)
    ensures SpansContiguousFrom(r, 0)
    ensures LastEnd(r, 0) <= |t| && Blank(t[LastEnd(r, 0)..])
    ensures r == [] <==> Blank(t)
  {
    var r := SentencesFrom(t, 0);
    assert t[0..] == t;
    r
  }

  /** `ExtractSentences` is the only segmentation of the whole text: any
      spans that start at 0, are contiguous, close where the pattern
      dictates, and leave only whitespace after them are its result. */
  lemma ExtractSentencesUnique(t: string, r: seq<Sentence>)
    requires Segments(t, 0, r)
    ensures r == ExtractSentences(t)
  {
    assert t[0..] == t;
    SegmentsUnique(t, 0, r, SentencesFrom(t, 0));
  }
}

=== FILE: services.dfy ===
/** The processor's state and the external capabilities it calls. Every
    capability is a pure function supplied by the caller, so each operation of
    the model is a function of its inputs. */
module Services {
  import opened Wrappers
  import opened Values
  import Config

  /** One page as the PDF loader returns it. */
  datatype PdfPage = PdfPage(content: string, metadata: Metadata)

  /** One similarity-search hit: the stored document and its distance score,
      which the model only carries along. */
  datatype Hit = Hit(doc: Document, score: real)

  /** What a chat-model call produces: the reply text, or an exception with
      its message. */
  datatype ChatReply = Replied(text: string) | Raised(message: string)

  /** The capabilities the processors and `backend/utils.py` call but do not implement. A `None`
      stands for a call that raises. */
  datatype Services = Services(
    fileExists: string -> bool,                          // Path(p).exists()
    readText: string -> Option<string>,                  // open(p, encoding='utf-8').read()
    loadPdf: string -> Option<seq<PdfPage>>,             // PyPDFLoader(p).load()
    ocr: (string, string) -> Option<string>,             // vision model reply to (prompt, image file)
    split: (string, Config.Splitter) -> seq<string>,     // RecursiveCharacterTextSplitter on one text
    md5: string -> string,                               // hashlib.md5(s.encode()).hexdigest()
    canIndex: seq<Document> -> bool,                     // FAISS.from_documents(chunks, embeddings) returns
    similaritySearch: (VectorStore, string, int) -> Option<seq<Hit>>,
    chat: string -> ChatReply,                           // chat model invoke(prompt)
    parseJson: string -> Option<Json>                    // json.loads
  )

  /** `groq_api_key or os.getenv("GROQ_API_KEY")`, with "" for "no key". */
  function ResolveApiKey(argument: Option<string>, environment: Option<string>): (key: string)
    ensures argument.Some? && argument.value != [] ==> key == argument.value
    ensures (argument.None? || argument.value == []) ==> key == environment.GetOr("")
  {
    if argument.Some? && argument.value != [] then argument.value else environment.GetOr("")
  }

  /** The state of an `EnhancedDocumentProcessor`. */
  datatype Processor = Processor(
    apiKey: string,
    vectorStore: Option<VectorStore>,
    processedDocuments: seq<Document>)
  {
    /** The vision model (OCR) exists only when a key was found. */
    predicate HasVisionModel() {
      apiKey != []
    }

    /** The chat model exists only when a key was found. */
    predicate HasChatModel() {
      apiKey != []
    }
  }

  /** `EnhancedDocumentProcessor(groq_api_key)` with `GROQ_API_KEY` set to
      `environment`: the key is the argument when it is truthy and the
      environment's otherwise, both models exist exactly when that key is
      non-empty, and there is no store and no processed document yet. */
  function NewProcessor(argument: Option<string>, environment: Option<string>): (p: Processor)
    ensures p.vectorStore.None? && p.processedDocuments == []
    ensures argument.Some? && argument.value != [] ==> p.apiKey == argument.value && p.HasChatModel()
    ensures (argument.None? || argument.value == []) ==> p.apiKey == environment.GetOr("")
    ensures p.HasChatModel() <==> p.HasVisionModel()
    ensures p.HasChatModel() <==> (argument.Some? && argument.value != []) || (environment.Some? && environment.value != [])
  {
    Processor(ResolveApiKey(argument, environment), None, [])
  }
}

=== FILE: session.dfy ===
/** The backend's module-level state (`processor_instance`,
    `vector_store_loaded`, `processing_stats`, `chat_history`) as one explicit
    record, with the helpers that read and replace it, and `generate_response`. */
module Session {
  import opened Wrappers
  import opened Text
  import opened Values
  import opened Services
  import opened Config
  import opened Retrieval

  /** An `HTTPException`: status code and detail. */
  datatype HttpError = HttpError(status: nat, detail: string)

  /** The four globals. `processing_stats` and the chat history entries are
      JSON dictionaries. */
  datatype AppState = AppState(
    vectorStoreLoaded: bool,
    processingStats: Json,
    chatHistory: seq<Json>,
    processor: Option<Processor>)

  /** The globals at import time. */
  const InitialState: AppState := AppState(false, JObj(map[]), [], None)

  /** The keyword arguments of `update_global_state`: `None` for a key that
      is not passed. */
  datatype StateUpdate = StateUpdate(
    vectorStoreLoaded: Option<bool>,
    processingStats: Option<Json>,
    chatHistory: Option<seq<Json>>,
    processor: Option<Option<Processor>>)

  /** `update_global_state(**kwargs)`: each passed key replaces its variable;
      every variable whose key is not passed keeps its value. */
  function UpdateGlobalState(st: AppState, u: StateUpdate): (r: AppState)
    ensures r.vectorStoreLoaded == if u.vectorStoreLoaded.Some? then u.vectorStoreLoaded.value else st.vectorStoreLoaded
    ensures r.processingStats == if u.processingStats.Some? then u.processingStats.value else st.processingStats
    ensures r.chatHistory == if u.chatHistory.Some? then u.chatHistory.value else st.chatHistory
    ensures r.processor == if u.processor.Some? then u.processor.value else st.processor
  {
    AppState(
      u.vectorStoreLoaded.GetOr(st.vectorStoreLoaded),
      u.processingStats.GetOr(st.processingStats),
      u.chatHistory.GetOr(st.chatHistory),
      u.processor.GetOr(st.processor))
  }

  /** Two calls in a row act as one call with both sets of keys, the later
      value winning for a key passed twice. */
  function Then(first: StateUpdate, second: StateUpdate): StateUpdate {
    StateUpdate(
      if second.vectorStoreLoaded.Some? then second.vectorStoreLoaded else first.vectorStoreLoaded,
      if second.processingStats.Some? then second.processingStats else first.processingStats,
      if second.chatHistory.Some? then second.chatHistory else first.chatHistory,
      if second.processor.Some? then second.processor else first.processor)
  }

  lemma UpdatesCompose(st: AppState, first: StateUpdate, second: StateUpdate)
    ensures UpdateGlobalState(UpdateGlobalState(st, first), second) == UpdateGlobalState(st, Then(first, second))
  {
  }

  /** `clear_session_data()`: empty history, not loaded, empty stats, and the
      processor, when there is one, loses its index but is otherwise kept. */
  function ClearSessionData(st: AppState): (r: AppState)
    ensures r.chatHistory == [] && !r.vectorStoreLoaded && r.processingStats == JObj(map[])
    ensures r.processor.Some? <==> st.processor.Some?
    ensures r.processor.Some? ==>
      && r.processor.value.vectorStore.None?
      && r.processor.value.apiKey == st.processor.value.apiKey
      && r.processor.value.processedDocuments == st.processor.value.processedDocuments
  {
    var processor :=
      if st.processor.Some? && st.processor.value.vectorStore.Some? then
        Some(st.processor.value.(vectorStore := None))
      else st.processor;
    AppState(false, JObj(map[]), [], processor)
  }

  /** Clearing twice is clearing once. */
  lemma ClearIdempotent(st: AppState)
    ensures ClearSessionData(ClearSessionData(st)) == ClearSessionData(st)
  {
  }

  /** After a clear, a search through the kept processor finds nothing. */
  lemma ClearedSearchFindsNothing(svc: Services, st: AppState, query: string, k: int)
    requires ClearSessionData(st).processor.Some?
    ensures SearchWithCitations(svc, ClearSessionData(st).processor.value, query, k) == []
  {
  }

  /** `initialize_processor(groq_api_key)`: the argument, else the
      environment variable; without a key the call raises a 400 and changes
      nothing, otherwise a fresh processor with that key replaces any
      previous one. */
  function InitializeProcessor(st: AppState, argument: Option<string>, environment: Option<string>)
    : (r: (AppState, Result<Processor, HttpError>))
    ensures ResolveApiKey(argument, environment) == [] ==>
      r == (st, Failure(HttpError(400, "GROQ API key is required")))
    ensures ResolveApiKey(argument, environment) != [] ==>
      && r.1.Success?
      && r.1.value.apiKey == ResolveApiKey(argument, environment)
      && r.1.value.vectorStore.None? && r.1.value.processedDocuments == []
      && r.0 == st.(processor := Some(r.1.value))
  {
    var key := ResolveApiKey(argument, environment);
    if key == [] then (st, Failure(HttpError(400, "GROQ API key is required")))
    else
      var p := NewProcessor(Some(key), environment);
      (st.(processor := Some(p)), Success(p))
  }

  /** `get_processor()`: the existing processor, untouched; only when there
      is none is one initialized, from the environment alone. */
  function GetProcessor(st: AppState, environment: Option<string>): (r: (AppState, Result<Processor, HttpError>))
    ensures st.processor.Some? ==> r == (st, Success(st.processor.value))
    ensures st.processor.None? ==> r == InitializeProcessor(st, None, environment)
  {
    if st.processor.Some? then (st, Success(st.processor.value))
    else InitializeProcessor(st, None, environment)
  }

  /** Once `get_processor` has succeeded, calling it again returns the same
      processor and changes nothing, whatever the environment says then. */
  lemma GetProcessorStable(st: AppState, env1: Option<string>, env2: Option<string>)
    requires GetProcessor(st, env1).1.Success?
    ensures var (st1, p1) := GetProcessor(st, env1);
      GetProcessor(st1, env2) == (st1, p1)
  {
  }

  /** The item text of a result: the content when it is at most 200
      characters, otherwise its first 200 characters and "...". */
  function Preview(content: string): (r: string)
    ensures |content| <= 200 ==> r == content
    ensures |content| > 200 ==> |r| == 203 && r[..200] == content[..200] && r[200..] == "..."
  {
    if |content| > 200 then content[..200] + "..." else content
  }

  function Header(query: string, n: nat): string {
    "Based on your query '" + query + "', I found " + NatToString(n) + " relevant document sections."
  }

  /** The lines of the answer given without a chat model: the header with the
      number of results, a heading, then the first three results at most,
      numbered from 1, each with its citation and preview. */
  function FallbackParts(query: string, results: seq<CitationResult>): (parts: seq<string>)
    ensures |parts| == 2 + (if |results| < 3 then |results| else 3)
    ensures parts[0] == Header(query, |results|) && parts[1] == "\n**Key Information:**"
    ensures forall i :: 0 <= i < |parts| - 2 ==>
      parts[i + 2] == "\n" + NatToString(i + 1) + ". From " + results[i].citation + ": " + Preview(results[i].content)
  {
    var shown := if |results| < 3 then |results| else 3;
    [Header(query, |results|), "\n**Key Information:**"]
      + seq(shown, i requires 0 <= i < shown =>
          "\n" + NatToString(i + 1) + ". From " + results[i].citation + ": " + Preview(results[i].content))
  }

  /** The excerpts handed to the chat model: every result, numbered from 1,
      with its citation and content, separated by blank lines. */
  function ContextContent(results: seq<CitationResult>): string {
    Join(seq(|results|, i requires 0 <= i < |results| =>
      "Document " + NatToString(i + 1) + " (" + results[i].citation + "):\n" + results[i].content), "\n\n")
  }

  const ResponsePromptHead: string :=
    "\n        Based on the following document excerpts, provide a comprehensive answer to the user's query: \""
  const ResponsePromptMiddle: string :=
    "\"\n        \n        Document excerpts:\n        "
  const ResponsePromptTail: string :=
    "\n        \n        Please provide:\n"
    + "        1. A direct answer to the user's question\n"
    + "        2. Key points from the documents\n"
    + "        3. Any relevant details or context\n"
    + "        4. Connections between different sources if applicable\n"
    + "        \n"
    + "        Make sure to reference the information from the documents and provide a helpful, accurate response.\n"
    + "        "

  function ResponsePrompt(query: string, results: seq<CitationResult>): string {
    FillTemplate(ResponsePromptHead, query, ResponsePromptMiddle, ContextContent(results), ResponsePromptTail)
  }

  /** The fixed sentence returned when the chat call raises. */
  function ErrorSentence(query: string, n: nat): string {
    "Based on your query '" + query + "', I found relevant information in " + NatToString(n)
      + " document sections. Please see the citations below for detailed information."
  }

  /** `generate_response(processor, query, search_results, theme_analysis)`;
      the theme analysis is not read. Without a chat model: the fallback
      lines joined by newlines. With one: its reply to the prompt built from
      all results, or the fixed sentence when the call raises. */
  function GenerateResponse(svc: Services, p: Processor, query: string, results: seq<CitationResult>): (r: string)
    ensures !p.HasChatModel() ==> r == Join(FallbackParts(query, results), "\n")
    ensures p.HasChatModel() && svc.chat(ResponsePrompt(query, results)).Replied? ==>
      r == svc.chat(ResponsePrompt(query, results)).text
    ensures p.HasChatModel() && svc.chat(ResponsePrompt(query, results)).Raised? ==>
      r == ErrorSentence(query, |results|)
  {
    if !p.HasChatModel() then Join(FallbackParts(query, results), "\n")
    else
      match svc.chat(ResponsePrompt(query, results))
      case Replied(text) => text
      case Raised(_) => ErrorSentence(query, |results|)
  }

  /** Without a chat model the answer opens with the header that counts all
      results, even though it lists at most three of them. */
  lemma FallbackOpensWithHeader(svc: Services, p: Processor, query: string, results: seq<CitationResult>)
    requires !p.HasChatModel()
    ensures Header(query, |results|) <= GenerateResponse(svc, p, query, results)
  {
    JoinShape(FallbackParts(query, results), "\n");
  }
}

=== FILE: stats.dfy ===
/** `calculate_processing_stats`: a single pass over the processed documents
    that remembers the type of the first document of every source. */
module Stats {
  import opened Wrappers
  import opened Values

  /** `doc.metadata.get("source", "unknown")`. */
  function Src(d: Document): Value {
    d.metadata.source.GetOr(VStr("unknown"))
  }

  /** `doc.metadata.get("type", "unknown")`. */
  function Ty(d: Document): Value {
    d.metadata.docType.GetOr(VStr("unknown"))
  }

  /** The distinct sources of the documents. */
  function SourceSet(docs: seq<Document>): set<Value> {
    set k | 0 <= k < |docs| :: Src(docs[k])
  }

  /** Document `k` is the first one of its source. */
  predicate IsFirst(docs: seq<Document>, k: nat)
    requires k < |docs|
  {
    forall j :: 0 <= j < k ==> Src(docs[j]) != Src(docs[k])
  }

  /** How many sources have a first document of type `t`. */
  function CountFirsts(docs: seq<Document>, t: Value): nat
    decreases |docs|
  {
    if docs == [] then 0
    else
      var n := |docs| - 1;
      CountFirsts(docs[..n], t) + (if IsFirst(docs, n) && Ty(docs[n]) == t then 1 else 0)
  }

  /** The types of the first documents of all sources, each once, in the
      order in which they first occur. */
  function FirstTypes(docs: seq<Document>): seq<Value>
    decreases |docs|
  {
    if docs == [] then []
    else
      var n := |docs| - 1;
      var earlier := FirstTypes(docs[..n]);
      if IsFirst(docs, n) && Ty(docs[n]) !in earlier then earlier + [Ty(docs[n])] else earlier
  }

  predicate Distinct(s: seq<Value>) {
    forall i, j :: 0 <= i < j < |s| ==> s[i] != s[j]
  }

  /** The counts of the listed types added up. */
  function SumCounts(ts: seq<Value>, c: map<Value, nat>): nat
    requires forall t :: t in ts ==> t in c
    decreases |ts|
  {
    if ts == [] then 0 else SumCounts(ts[..|ts| - 1], c) + c[ts[|ts| - 1]]
  }

  lemma {:induction false} SumCountsIgnores(ts: seq<Value>, c: map<Value, nat>, t: Value, v: nat)
    requires forall u :: u in ts ==> u in c
    requires t !in ts
    ensures SumCounts(ts, c[t := v]) == SumCounts(ts, c)
    decreases |ts|
  {
    if ts != [] {
      SumCountsIgnores(ts[..|ts| - 1], c, t, v);
    }
  }

  lemma {:induction false} SumCountsBump(ts: seq<Value>, c: map<Value, nat>, t: Value)
    requires forall u :: u in ts ==> u in c
    requires Distinct(ts) && t in ts
    ensures SumCounts(ts, c[t := c[t] + 1]) == SumCounts(ts, c) + 1
    decreases |ts|
  {
    var init := ts[..|ts| - 1];
    if ts[|ts| - 1] == t {
      assert t !in init;
      SumCountsIgnores(init, c, t, c[t] + 1);
    } else {
      assert t in init;
      SumCountsBump(init, c, t);
    }
  }

  /** How one more document relates the facts about a prefix to the facts
      about the prefix one longer. */
  lemma PrefixStep(docs: seq<Document>, i: nat)
    requires i < |docs|
    ensures docs[..i + 1][..i] == docs[..i]
    ensures SourceSet(docs[..i + 1]) == SourceSet(docs[..i]) + {Src(docs[i])}
    ensures IsFirst(docs[..i + 1], i) <==> Src(docs[i]) !in SourceSet(docs[..i])
  {
    var p := docs[..i];
    var q := docs[..i + 1];
    assert q[..i] == p;
    assert forall k :: 0 <= k < i ==> q[k] == p[k];
    if !IsFirst(q, i) {
      var j :| 0 <= j < i && Src(q[j]) == Src(q[i]);
      assert Src(p[j]) in SourceSet(p);
    }
  }

  /** The loop's state: `original_files` (source to first type), the keys of
      `file_type_counts` in insertion order, and `file_type_counts`. */
  datatype Tally = Tally(files: map<Value, Value>, types: seq<Value>, counts: map<Value, nat>)

  /** One iteration of the loop. */
  function Step(tally: Tally, d: Document): Tally {
    var s := Src(d);
    var ty := Ty(d);
    if s in tally.files then tally
    else if ty in tally.counts then
      Tally(tally.files[s := ty], tally.types, tally.counts[ty := tally.counts[ty] + 1])
    else
      Tally(tally.files[s := ty], tally.types + [ty], tally.counts[ty := 1])
  }

  /** The type list has exactly the counted types, each once. */
  ghost predicate TypesListed(tally: Tally) {
    && Distinct(tally.types)
    && (forall t :: t in tally.counts <==> t in tally.types)
  }

  /** Every type is counted as often as it is the type of a first document. */
  ghost predicate CountsExact(tally: Tally, seen: seq<Document>) {
    && (forall t :: t in tally.counts ==> tally.counts[t] == CountFirsts(seen, t) > 0)
    && (forall t :: t !in tally.counts ==> CountFirsts(seen, t) == 0)
  }

  /** What the state knows after the documents `seen`. */
  ghost predicate Summarizes(tally: Tally, seen: seq<Document>) {
    && tally.files.Keys == SourceSet(seen)
    && tally.types == FirstTypes(seen)
    && TypesListed(tally)
    && CountsExact(tally, seen)
    && SumCounts(tally.types, tally.counts) == |tally.files|
  }

  /** The recursive definitions unfolded at a prefix. */
  lemma UnfoldPrefix(docs: seq<Document>, i: nat)
    requires i < |docs|
    ensures forall t :: (CountFirsts(docs[..i + 1], t) ==
      CountFirsts(docs[..i], t) + (if IsFirst(docs[..i + 1], i) && Ty(docs[i]) == t then 1 else 0))
    ensures FirstTypes(docs[..i + 1])
      == if IsFirst(docs[..i + 1], i) && Ty(docs[i]) !in FirstTypes(docs[..i])
         then FirstTypes(docs[..i]) + [Ty(docs[i])] else FirstTypes(docs[..i])
  {
    var q := docs[..i + 1];
    assert q[..i] == docs[..i];
    assert q[i] == docs[i];
  }

  /** A document already seen changes nothing. */
  lemma StepSeen(docs: seq<Document>, i: nat, tally: Tally)
    requires i < |docs| && Summarizes(tally, docs[..i]) && Src(docs[i]) in tally.files
    ensures Summarizes(Step(tally, docs[i]), docs[..i + 1])
  {
    PrefixStep(docs, i);
    UnfoldPrefix(docs, i);
  }

  lemma CountsAfterFirst(docs: seq<Document>, i: nat, tally: Tally, counts: map<Value, nat>)
    requires i < |docs| && CountsExact(tally, docs[..i])
    requires IsFirst(docs[..i + 1], i)
    requires counts == tally.counts[Ty(docs[i]) := if Ty(docs[i]) in tally.counts then tally.counts[Ty(docs[i])] + 1 else 1]
    ensures CountsExact(tally.(counts := counts), docs[..i + 1])
  {
    UnfoldPrefix(docs, i);
  }

  /** The first document of a source whose type is already counted. */
  lemma StepNewSourceKnownType(docs: seq<Document>, i: nat, tally: Tally)
    requires i < |docs| && Summarizes(tally, docs[..i])
    requires Src(docs[i]) !in tally.files && Ty(docs[i]) in tally.counts
    ensures Summarizes(Step(tally, docs[i]), docs[..i + 1])
  {
    var q := docs[..i + 1];
    var ty := Ty(docs[i]);
    var next := Tally(tally.files[Src(docs[i]) := ty], tally.types, tally.counts[ty := tally.counts[ty] + 1]);
    assert Step(tally, docs[i]) == next;
    assert IsFirst(q, i) && next.files.Keys == SourceSet(q) by {
      PrefixStep(docs, i);
    }
    assert next.types == FirstTypes(q) by {
      UnfoldPrefix(docs, i);
    }
    assert CountsExact(next, q) by {
      CountsAfterFirst(docs, i, tally, next.counts);
    }
    assert TypesListed(next) && SumCounts(next.types, next.counts) == |next.files| by {
      KnownTypeListedAndSummed(tally, Src(docs[i]), ty);
    }
  }

  /** Adding a new source of a counted type keeps the type list and the sum right. */
  lemma KnownTypeListedAndSummed(tally: Tally, s: Value, ty: Value)
    requires TypesListed(tally) && SumCounts(tally.types, tally.counts) == |tally.files|
    requires s !in tally.files && ty in tally.counts
    ensures var next := Tally(tally.files[s := ty], tally.types, tally.counts[ty := tally.counts[ty] + 1]);
      TypesListed(next) && SumCounts(next.types, next.counts) == |next.files|
  {
    SumCountsBump(tally.types, tally.counts, ty);
    assert |tally.files[s := ty]| == |tally.files| + 1;
  }

  /** The first document of a source whose type is new. */
  lemma StepNewSourceNewType(docs: seq<Document>, i: nat, tally: Tally)
    requires i < |docs| && Summarizes(tally, docs[..i])
    requires Src(docs[i]) !in tally.files && Ty(docs[i]) !in tally.counts
    ensures Summarizes(Step(tally, docs[i]), docs[..i + 1])
  {
    var q := docs[..i + 1];
    var ty := Ty(docs[i]);
    var next := Tally(tally.files[Src(docs[i]) := ty], tally.types + [ty], tally.counts[ty := 1]);
    assert Step(tally, docs[i]) == next;
    assert IsFirst(q, i) && next.files.Keys == SourceSet(q) by {
      PrefixStep(docs, i);
    }
    assert next.types == FirstTypes(q) by {
      UnfoldPrefix(docs, i);
      assert ty !in tally.types;
    }
    assert CountsExact(next, q) by {
      CountsAfterFirst(docs, i, tally, next.counts);
    }
    assert TypesListed(next) && SumCounts(next.types, next.counts) == |next.files| by {
      NewTypeListedAndSummed(tally, Src(docs[i]), ty);
    }
  }

  /** Adding a new source of a new type keeps the type list and the sum right. */
  lemma NewTypeListedAndSummed(tally: Tally, s: Value, ty: Value)
    requires TypesListed(tally) && SumCounts(tally.types, tally.counts) == |tally.files|
    requires s !in tally.files && ty !in tally.counts
    ensures var next := Tally(tally.files[s := ty], tally.types + [ty], tally.counts[ty := 1]);
      TypesListed(next) && SumCounts(next.types, next.counts) == |next.files|
  {
    var next := Tally(tally.files[s := ty], tally.types + [ty], tally.counts[ty := 1]);
    AppendDistinct(tally.types, ty);
    SumCountsAppend(tally.types, next.counts, ty);
    SumCountsIgnores(tally.types, tally.counts, ty, 1);
    assert |next.files| == |tally.files| + 1;
  }

  lemma SumCountsAppend(ts: seq<Value>, c: map<Value, nat>, t: Value)
    requires forall u :: u in ts ==> u in c
    requires t in c
    ensures SumCounts(ts + [t], c) == SumCounts(ts, c) + c[t]
  {
    assert (ts + [t])[..|ts|] == ts;
  }

  lemma AppendDistinct(ts: seq<Value>, t: Value)
    requires Distinct(ts) && t !in ts
    ensures Distinct(ts + [t])
  {
    var us := ts + [t];
    forall a, b | 0 <= a < b < |us|
      ensures us[a] != us[b]
    {
      assert us[a] == ts[a];
    }
  }

  lemma StepSummarizes(docs: seq<Document>, i: nat, tally: Tally)
    requires i < |docs| && Summarizes(tally, docs[..i])
    ensures Summarizes(Step(tally, docs[i]), docs[..i + 1])
  {
    if Src(docs[i]) in tally.files {
      StepSeen(docs, i, tally);
    } else if Ty(docs[i]) in tally.counts {
      StepNewSourceKnownType(docs, i, tally);
    } else {
      StepNewSourceNewType(docs, i, tally);
    }
  }

  /** The dictionary `calculate_processing_stats` returns. */
  datatype ProcessingStats = ProcessingStats(
    totalFiles: nat,
    totalDocuments: nat,
    totalChunks: nat,
    fileTypes: seq<Value>,
    typeCounts: map<Value, nat>,
    processedAt: string)

  /** `calculate_processing_stats(documents, vector_store)`. Without an index
      the call raises (`None.index`). Otherwise it counts the distinct sources
      (a missing source counting as "unknown"), the documents and the indexed
      chunks; each source is counted once, under the type of its first
      document, so the type counts add up to the number of files, and the
      types are listed once each in first-seen order. */
  method CalculateProcessingStats(docs: seq<Document>, store: Option<VectorStore>, now: string)
    returns (r: Result<ProcessingStats, string>)
    ensures store.None? <==> r.Failure?
    ensures r.Success? ==>
      && store.Some?
      && r.value.totalFiles == |SourceSet(docs)|
      && r.value.totalDocuments == |docs|
      && r.value.totalChunks == NTotal(store.value)
      && r.value.fileTypes == FirstTypes(docs)
      && Distinct(r.value.fileTypes)
      && (forall t :: t in r.value.typeCounts <==> t in r.value.fileTypes)
      && (forall t :: t in r.value.typeCounts ==> r.value.typeCounts[t] == CountFirsts(docs, t) > 0)
      && SumCounts(r.value.fileTypes, r.value.typeCounts) == r.value.totalFiles
      && r.value.processedAt == now
  {
    if store.None? {
      return Failure("'NoneType' object has no attribute 'index'");
    }
    var tally := Tally(map[], [], map[]);
    var i := 0;
    while i < |docs|
      invariant 0 <= i <= |docs|
      invariant Summarizes(tally, docs[..i])
    {
      StepSummarizes(docs, i, tally);
      tally := Step(tally, docs[i]);
      i := i + 1;
    }
    assert docs[..i] == docs;
    return Success(ProcessingStats(|tally.files|, |docs|, NTotal(store.value), tally.types, tally.counts, now));
  }
}

=== FILE: text.dfy ===
/** String helpers with Python's semantics: whitespace classes, `strip`, `split`,
    `lower`, path name and suffix, decimal formatting and `join`. */
module Text {
  import opened Wrappers

  /** Python's `str.isspace()` for one character; the regular-expression class
      `\s` and the argument-less `strip`/`split` use the same set. */
  predicate IsSpace(c: char) {
    || c == ' '
    || ('\t' <= c <= '\r')
    || ('\U{1C}' <= c <= '\U{1F}')
    || c == '\U{85}' || c == '\U{A0}' || c == '\U{1680}'
    || ('\U{2000}' <= c <= '\U{200A}')
    || c == '\U{2028}' || c == '\U{2029}' || c == '\U{202F}' || c == '\U{205F}'
    || c == '\U{3000}'
  }

  /** Whitespace only (vacuously true of the empty string). */
  predicate Blank(s: string) {
    forall i :: 0 <= i < |s| ==> IsSpace(s[i])
  }

  /** The first position at or after `i` that holds no whitespace, or `|s|`. */
  function SkipSpace(s: string, i: nat): (j: nat)
    requires i <= |s|
    ensures i <= j <= |s|
    ensures forall k :: i <= k < j ==> IsSpace(s[k])
    ensures j < |s| ==> !IsSpace(s[j])
    decreases |s| - i
  {
    if i < |s| && IsSpace(s[i]) then SkipSpace(s, i + 1) else i
  }

  /** The position just after the last non-whitespace character before `j`, or 0. */
  function SkipSpaceBack(s: string, j: nat): (i: nat)
    requires j <= |s|
    ensures i <= j
    ensures forall k :: i <= k < j ==> IsSpace(s[k])
    ensures i > 0 ==> !IsSpace(s[i - 1])
  {
    if j > 0 && IsSpace(s[j - 1]) then SkipSpaceBack(s, j - 1) else j
  }

  /** Python's `str.strip()`: empty exactly for blank input, and otherwise
      the slice of `s` from its first non-whitespace character through its
      last one (`SkipSpace` and `SkipSpaceBack` say where those are), which
      therefore starts and ends on a non-whitespace character. */
  function Strip(s: string): (r: string)
    ensures r == [] <==> Blank(s)
    ensures r != [] ==> !IsSpace(r[0]) && !IsSpace(r[|r| - 1])
    ensures |r| <= |s|
    ensures r != [] ==> SkipSpace(s, 0) < SkipSpaceBack(s, |s|) && r == s[SkipSpace(s, 0)..SkipSpaceBack(s, |s|)]
  {
    var a := SkipSpace(s, 0);
    var b := SkipSpaceBack(s, |s|);
    if a < b then s[a..b] else []
  }

  /** The end of the run of non-whitespace characters that starts at `j`. */
  function WordEnd(s: string, j: nat): (e: nat)
    requires j <= |s|
    ensures j <= e <= |s|
    ensures forall k :: j <= k < e ==> !IsSpace(s[k])
    ensures e == |s| || IsSpace(s[e])
    decreases |s| - j
  {
    if j < |s| && !IsSpace(s[j]) then WordEnd(s, j + 1) else j
  }

  /** The words of `s` from position `i` on: skip whitespace, take the run
      of non-whitespace characters, repeat. */
  function WordsFrom(s: string, i: nat): seq<string>
    requires i <= |s|
    decreases |s| - i
  {
    var j := SkipSpace(s, i);
    if j == |s| then []
    else
      var e := WordEnd(s, j);
      assert e > j;
      [s[j..e]] + WordsFrom(s, e)
  }

  /** Python's `str.split()` with no argument: the maximal whitespace-free
      runs, in order. */
  function Words(s: string): seq<string> {
    WordsFrom(s, 0)
  }

  /** A word begins at `k`: a non-whitespace character at the start of the
      text or right after whitespace. */
  predicate WordStart(s: string, k: nat)
    requires k < |s|
  {
    !IsSpace(s[k]) && (k == 0 || IsSpace(s[k - 1]))
  }

  /** The number of positions at or after `k` where a word begins. */
  function WordStartsFrom(s: string, k: nat): nat
    requires k <= |s|
    decreases |s| - k
  {
    if k == |s| then 0 else (if WordStart(s, k) then 1 else 0) + WordStartsFrom(s, k + 1)
  }

  /** Positions where no word begins add nothing to the count. */
  lemma {:induction false} SkipNonStarts(s: string, a: nat, b: nat)
    requires a <= b <= |s|
    requires forall k :: a <= k < b ==> !WordStart(s, k)
    ensures WordStartsFrom(s, a) == WordStartsFrom(s, b)
    decreases b - a
  {
    if a < b {
      SkipNonStarts(s, a + 1, b);
    }
  }

  /** From a position that begins no word in the middle, `split()` yields
      one word per position where a word begins. */
  lemma {:induction false} WordsFromCount(s: string, i: nat)
    requires i <= |s|
    requires i == 0 || i == |s| || IsSpace(s[i])
    ensures |WordsFrom(s, i)| == WordStartsFrom(s, i)
    decreases |s| - i
  {
    var j := SkipSpace(s, i);
    SkipNonStarts(s, i, j);
    if j < |s| {
      var e := WordEnd(s, j);
      assert WordStart(s, j);
      SkipNonStarts(s, j + 1, e);
      WordsFromCount(s, e);
    }
  }

  /** `len(s.split())`, the word count recorded in document metadata: the
      number of positions where a word begins, so zero exactly for blank text. */
  function WordCount(s: string): (n: nat)
    ensures n == WordStartsFrom(s, 0)
    ensures n == 0 <==> Blank(s)
  {
    WordsFromCount(s, 0);
    assert SkipSpace(s, 0) < |s| ==> !IsSpace(s[SkipSpace(s, 0)]);
    |Words(s)|
  }

  /** ASCII case folding of one character. */
  function LowerChar(c: char): char {
    if 'A' <= c <= 'Z' then (c as int + 32) as char else c
  }

  /** `str.lower()` restricted to ASCII letters. The model only compares a
      lower-cased text with "no text found" or with an extension such as
      ".pdf", all ASCII. The only non-ASCII character whose lower case is
      all ASCII is the Kelvin sign (to 'k', which none of these targets
      contains), so the comparisons come out as with the full mapping. */
  function Lower(s: string): (r: string)
    ensures |r| == |s|
    ensures forall i :: 0 <= i < |s| ==> r[i] == LowerChar(s[i])
  {
    seq(|s|, i requires 0 <= i < |s| => LowerChar(s[i]))
  }

  /** Position of the last occurrence of `c`, or -1 (Python's `str.rfind`). */
  function LastIndexOf(s: string, c: char): (r: int)
    ensures -1 <= r < |s|
    ensures r >= 0 ==> s[r] == c
    ensures forall k :: r < k < |s| ==> s[k] != c
  {
    if s == [] then -1
    else if s[|s| - 1] == c then |s| - 1
    else LastIndexOf(s[..|s| - 1], c)
  }

  /** `Path(p).name`, taken as the text after the last '/'. */
  function Basename(path: string): (name: string)
    ensures '/' !in name
    ensures |name| <= |path| && name == path[|path| - |name|..]
    ensures name == path || (|name| < |path| && path[|path| - |name| - 1] == '/')
  {
    var k := LastIndexOf(path, '/');
    path[k + 1..]
  }

  /** `Path(p).suffix`: the name's text from its last '.', provided that dot
      is neither the first nor the last character of the name. A non-empty
      suffix is a dot-free tail of the name after one '.'; it is empty exactly
      when the name has no '.' after its first character or ends in '.'. */
  function Suffix(path: string): (ext: string)
    ensures ext != [] ==>
      var name := Basename(path);
      && 2 <= |ext| < |name| && ext == name[|name| - |ext|..]
      && ext[0] == '.' && forall k :: 1 <= k < |ext| ==> ext[k] != '.'
    ensures ext == [] <==>
      var name := Basename(path);
      |name| < 2 || name[|name| - 1] == '.' || forall k :: 1 <= k < |name| ==> name[k] != '.'
  {
    var name := Basename(path);
    var i := LastIndexOf(name, '.');
    if 0 < i < |name| - 1 then name[i..] else []
  }

  predicate IsDigit(c: char) {
    '0' <= c <= '9'
  }

  predicate AllDigits(s: string) {
    forall i :: 0 <= i < |s| ==> IsDigit(s[i])
  }

  function DigitChar(d: nat): (c: char)
    requires d < 10
    ensures IsDigit(c) && DigitValue(c) == d
  {
    (d + '0' as int) as char
  }

  function DigitValue(c: char): nat
    requires IsDigit(c)
  {
    c as int - '0' as int
  }

  /** `str(n)` for a natural number: its decimal digits, most significant first. */
  function NatToString(n: nat): (r: string)
    ensures r != [] && AllDigits(r)
    decreases n
  {
    if n < 10 then [DigitChar(n)] else NatToString(n / 10) + [DigitChar(n % 10)]
  }

  /** `str(i)` for any integer. */
  function IntToString(i: int): (r: string)
    ensures r != []
    ensures i >= 0 ==> AllDigits(r)
  {
    if i < 0 then "-" + NatToString(-i) else NatToString(i)
  }

  function DigitsValue(s: string): nat
    requires s != [] && AllDigits(s)
    decreases |s|
  {
    if |s| == 1 then DigitValue(s[0])
    else DigitsValue(s[..|s| - 1]) * 10 + DigitValue(s[|s| - 1])
  }

  /** Reads a non-empty decimal digit string back into a number. */
  function ParseNat(s: string): Option<nat> {
    if s != [] && AllDigits(s) then Some(DigitsValue(s)) else None
  }

  /** Decimal formatting is inverted by `ParseNat`, so it is injective. */
  lemma {:induction false} ParseNatToString(n: nat)
    ensures ParseNat(NatToString(n)) == Some(n)
    decreases n
  {
    if n >= 10 {
      var prefix := NatToString(n / 10);
      var s := prefix + [DigitChar(n % 10)];
      assert s[..|s| - 1] == prefix;
      ParseNatToString(n / 10);
      assert DigitsValue(s) == (n / 10) * 10 + n % 10;
    }
  }

  lemma NatToStringInjective(m: nat, n: nat)
    requires NatToString(m) == NatToString(n)
    ensures m == n
  {
    ParseNatToString(m);
    ParseNatToString(n);
  }

  /** `sep.join(parts)`. */
  function Join(parts: seq<string>, sep: string): (r: string)
    decreases |parts|
  {
    if parts == [] then ""
    else if |parts| == 1 then parts[0]
    else parts[0] + sep + Join(parts[1..], sep)
  }

  /** The total length of a list of strings. */
  function TotalLength(parts: seq<string>): nat
    decreases |parts|
  {
    if parts == [] then 0 else |parts[0]| + TotalLength(parts[1..])
  }

  /** A join holds every part and one separator between each two neighbours,
      and begins with the first part. */
  lemma {:induction false} JoinShape(parts: seq<string>, sep: string)
    requires parts != []
    ensures |Join(parts, sep)| == TotalLength(parts) + (|parts| - 1) * |sep|
    ensures parts[0] <= Join(parts, sep)
    decreases |parts|
  {
    if |parts| > 1 {
      JoinShape(parts[1..], sep);
    }
  }

  /** Python's `s[:n]` for a non-negative `n`. */
  function Take(s: string, n: nat): (r: string)
    ensures |r| == if |s| <= n then |s| else n
    ensures r == s[..|r|]
  {
    if |s| <= n then s else s[..n]
  }
}

=== FILE: themes.dfy ===
/** `analyze_themes`: the contents of the search results, joined and cut to a
    bounded length, are sent to the chat model, whose reply is read as JSON,
    with fixed replacement answers when that is impossible. */
module Themes {
  import opened Wrappers
  import opened Text
  import opened Values
  import opened Services
  import opened Config
  import opened Retrieval

  const ContentSeparator: string := "\n\n---\n\n"

  /** `"\n\n---\n\n".join(result["content"] for result in results)`. */
  function JoinedContents(results: seq<CitationResult>): string {
    Join(seq(|results|, i requires 0 <= i < |results| => results[i].content), ContentSeparator)
  }

  /** The excerpt text handed to the prompt: the contents of all results
      joined by a rule line, cut to at most `MaxContentLengthForThemeAnalysis`
      characters. */
  function ThemeContent(results: seq<CitationResult>): (content: string)
    ensures |content| <= MaxContentLengthForThemeAnalysis
    ensures content <= JoinedContents(results)
    ensures |JoinedContents(results)| <= MaxContentLengthForThemeAnalysis ==> content == JoinedContents(results)
    ensures |JoinedContents(results)| > MaxContentLengthForThemeAnalysis ==> |content| == MaxContentLengthForThemeAnalysis
  {
    Take(JoinedContents(results), MaxContentLengthForThemeAnalysis)
  }

  /** `{"themes": [], "summary": "Unable to analyze themes"}`. */
  const Unable: Json := JObj(map["themes" := JArr([]), "summary" := JStr("Unable to analyze themes")])

  /** One theme entry `{"name": ..., "description": ..., "frequency": ...}`. */
  function Theme(name: string, description: string, frequency: string): Json {
    JObj(map["name" := JStr(name), "description" := JStr(description), "frequency" := JStr(frequency)])
  }

  /** The answer when the chat call raises: a single "Error" theme carrying
      the exception's message. */
  function ErrorAnalysis(message: string): (r: Json)
    ensures r.JObj? && r.fields.Keys == {"themes", "summary", "insights"}
    ensures r.fields["themes"] == JArr([Theme("Error", "Theme analysis failed: " + message, "N/A")])
    ensures r.fields["summary"] == JStr("Unable to analyze themes due to an error")
    ensures r.fields["insights"] == JArr([])
  {
    JObj(map[
      "themes" := JArr([Theme("Error", "Theme analysis failed: " + message, "N/A")]),
      "summary" := JStr("Unable to analyze themes due to an error"),
      "insights" := JArr([])])
  }

  /** The answer when the reply is not JSON: the whole reply as summary and
      its first 200 characters as the description of a single theme. */
  function FallbackAnalysis(reply: string): (r: Json)
    ensures r.JObj? && r.fields.Keys == {"themes", "summary", "insights"}
    ensures r.fields["summary"] == JStr(reply)
    ensures r.fields["insights"] == JArr([JStr("Theme analysis completed")])
    ensures r.fields["themes"] ==
      JArr([Theme("Analysis Available", reply[..if |reply| <= 200 then |reply| else 200], "varies")])
  {
    JObj(map[
      "themes" := JArr([Theme("Analysis Available", Take(reply, 200), "varies")]),
      "summary" := JStr(reply),
      "insights" := JArr([JStr("Theme analysis completed")])])
  }

  /** The description of the fallback's single theme is the start of the
      reply, at most 200 characters long, and the whole reply when that is
      short enough. */
  lemma FallbackDescription(reply: string)
    ensures var d := Take(reply, 200);
      && FallbackAnalysis(reply).fields["themes"] == JArr([Theme("Analysis Available", d, "varies")])
      && |d| <= 200 && d <= reply && (|reply| <= 200 ==> d == reply)
  {
  }

  /** `analyze_themes(query, search_results)`. Without a chat model or without
      results the answer is `Unable`, and the model is not asked. Otherwise
      the model is asked once, with the prompt built from the query and
      `ThemeContent`, and the answer is its reply read as JSON, else the
      fallback built from the reply, else (when the call raises) the error
      answer. */
  function AnalyzeThemes(svc: Services, p: Processor, query: string, results: seq<CitationResult>): (r: Json)
    ensures !p.HasChatModel() || results == [] ==> r == Unable
    ensures p.HasChatModel() && results != [] ==>
      var reply := svc.chat(ThemePrompt(query, ThemeContent(results)));
      && (reply.Raised? ==> r == ErrorAnalysis(reply.message))
      && (reply.Replied? && svc.parseJson(reply.text).Some? ==> r == svc.parseJson(reply.text).value)
      && (reply.Replied? && svc.parseJson(reply.text).None? ==> r == FallbackAnalysis(reply.text))
  {
    if !p.HasChatModel() || results == [] then Unable
    else
      match svc.chat(ThemePrompt(query, ThemeContent(results)))
      case Raised(message) => ErrorAnalysis(message)
      case Replied(text) =>
        match svc.parseJson(text)
        case Some(data) => data
        case None => FallbackAnalysis(text)
  }

  /** Unless the model's reply is itself valid JSON, the answer is an object
      with a "themes" list and a "summary" string. */
  lemma AnswerHasThemesAndSummary(svc: Services, p: Processor, query: string, results: seq<CitationResult>)
    requires !(p.HasChatModel() && results != []
               && svc.chat(ThemePrompt(query, ThemeContent(results))).Replied?
               && svc.parseJson(svc.chat(ThemePrompt(query, ThemeContent(results))).text).Some?)
    ensures var r := AnalyzeThemes(svc, p, query, results);
      && r.JObj? && "themes" in r.fields && "summary" in r.fields
      && r.fields["themes"].JArr? && r.fields["summary"].JStr?
  {
  }

  /** The first result's content always reaches the model: it starts the
      excerpt text, cut only when it is itself longer than the bound. */
  lemma FirstResultReachesPrompt(results: seq<CitationResult>)
    requires results != []
    ensures Take(results[0].content, MaxContentLengthForThemeAnalysis) <= ThemeContent(results)
  {
    var contents := seq(|results|, i requires 0 <= i < |results| => results[i].content);
    assert JoinedContents(results) == Join(contents, ContentSeparator);
    JoinShape(contents, ContentSeparator);
    assert contents[0] == results[0].content;
  }
}

=== FILE: values.dfy ===
/** The dynamic values the processors keep in dictionaries: document metadata
    entries and JSON documents. */
module Values {
  import opened Wrappers
  import opened Text

  /** One metadata entry: a string, an integer, or Python's `None`. */
  datatype Value = VStr(s: string) | VInt(i: int) | VNull

  /** A LangChain document's metadata dictionary, restricted to the keys the
      processor reads or writes; `None` is an absent key, so `md.get(k, d)` is
      `md.k.GetOr(d)`. */
  datatype Metadata = Metadata(
    source: Option<Value>,          // "source"
    docType: Option<Value>,         // "type"
    page: Option<Value>,            // "page"
    totalPages: Option<Value>,      // "total_pages"
    sentences: Option<Value>,       // "sentences"
    wordCount: Option<Value>,       // "word_count"
    charCount: Option<Value>,       // "char_count"
    processedAt: Option<Value>,     // "processed_at"
    chunkId: Option<Value>,         // "chunk_id"
    chunkIndex: Option<Value>,      // "chunk_index"
    totalChunks: Option<Value>,     // "total_chunks"
    chunkSentences: Option<Value>,  // "chunk_sentences"
    chunkWordCount: Option<Value>,  // "chunk_word_count"
    startChar: Option<Value>)       // "start_char"

  /** `{}`. */
  const EmptyMetadata: Metadata :=
    Metadata(None, None, None, None, None, None, None, None, None, None, None, None, None, None)

  /** Python truthiness: non-empty string, non-zero integer, never `None`. */
  predicate Truthy(v: Value) {
    match v
    case VStr(s) => s != []
    case VInt(i) => i != 0
    case VNull => false
  }

  /** `f"{v}"`. */
  function Format(v: Value): string {
    match v
    case VStr(s) => s
    case VInt(i) => IntToString(i)
    case VNull => "None"
  }

  /** A JSON document as `json.loads`/`json.dump` see it (numbers here are integers). */
  datatype Json =
    | JNull
    | JBool(b: bool)
    | JNum(n: int)
    | JStr(str: string)
    | JArr(items: seq<Json>)
    | JObj(fields: map<string, Json>)

  /** How a metadata value is written into a JSON document. */
  function ToJson(v: Value): Json {
    match v
    case VStr(s) => JStr(s)
    case VInt(i) => JNum(i)
    case VNull => JNull
  }

  /** A LangChain `Document`: page content plus metadata. */
  datatype Document = Document(content: string, metadata: Metadata)

  /** A FAISS store, represented by the documents it indexes in insertion order;
      the vectors themselves are left out. */
  datatype VectorStore = VectorStore(entries: seq<Document>)

  /** `index.ntotal`: the number of indexed vectors, one per entry. */
  function NTotal(store: VectorStore): nat {
    |store.entries|
  }
}

=== FILE: wrappers.dfy ===
/** Failure-compatible wrappers shared by every module of the model. */
module Wrappers {

  /** A value that may be missing: Python's `None` or a raised exception. */
  datatype Option<+T> = None | Some(value: T) {
    predicate IsFailure() {
      None?
    }

    function PropagateFailure<U>(): Option<U>
      requires None?
    {
      None
    }

    function Extract(): T
      requires Some?
    {
      value
    }

    function GetOr(default: T): T {
      match this
      case Some(v) => v
      case None => default
    }
  }

  /** Either a value or an error, used where the Python code raises a typed error. */
  datatype Result<+R, +E> = Success(value: R) | Failure(error: E) {
    predicate IsFailure() {
      Failure?
    }

    function PropagateFailure<U>(): Result<U, E>
      requires Failure?
    {
      Failure(error)
    }

    function Extract(): R
      requires Success?
    {
      value
    }
  }
}
